=== FILE: README.md ===
# tonutils-adnlctl health probe, modelled in Dafny

`tonutils-adnlctl` probes a fleet of TON lite-servers over ADNL. It prints one
table row per node, then a legend of the lag marks. This project models its
three pure cores:

- **Archive-depth estimation** (`archive.dfy`, `shardhex.dfy`, `probe.dfy`):
  - the day-granular binary search of `check_archive_depth` over an abstract
    `lookup: int -> bool` (block exists at this utime), and its
    years/months/days label;
  - the 9-rung ladder of `check_archive_depth_quick`;
  - the 8-byte big-endian two's-complement hex shard id;
  - the record-shaping rules of `probe_client` (early return, whole-map shard
    assignment, the `archive_unknown` flag), and the fleet map of
    `probe_all_clients`.
- **Fleet consistency annotation** (`status.dfy`):
  - `ProviderStatus`;
  - `annotate_seqno_lags` and `annotate_time_lags`, as functions from a
    sequence of records to a sequence of records;
  - `build_legend`;
  - the rows and row styles of `print_status`.
- **Formatting helpers** (`utils.dfy`, with `text.dfy` and `decimal.dfy`
  holding Python's `str(int)`, `str.join`, `str.ljust` and `str.lower`):
  - `format_elapsed` over integer milliseconds;
  - `parse_network`;
  - `color`;
  - the width, row-check and padding logic of `print_table`.

Three behaviours of the code are worth stating outright:
- The binary search makes at most ⌊log2(max_days+1)⌋+1 probes, and it makes
  one probe even when `max_days` is 0.
- `archive_unknown` is raised only when the returned label is `"(?)"`. When
  the archive check raises, the label stays absent and the flag stays false.
- The head seqno is stored before the shard fetch. A failed fetch leaves the
  seqno set and the shard map empty.

## Source map

Where each function of the source is modelled (the lemmas about them are in
the table below):

- `check_archive_depth` (tonutils_adnlctl/metrics.py:63-108): `Archive.MaxDays`,
  `Archive.SearchDepth` (lines 81-91), `Archive.DepthLabel` (lines 93-108),
  `Archive.CheckArchiveDepth`.
- `check_archive_depth_quick` (tonutils_adnlctl/metrics.py:111-143): `Archive.Ladder`,
  `Archive.LadderResults` (lines 124-136), `Archive.Scan` and
  `Archive.QuickLabel` (lines 138-143), `Archive.QuickDepth`.
- `probe_client` (tonutils_adnlctl/metrics.py:146-202): `Probe.ProbeClient`; the
  head/shard block (lines 171-181) is `Probe.WithHead` with `Probe.ShardMap`;
  the archive block (lines 183-196) is `Probe.WithArchive` and
  `Archive.CheckArchive`.
- `probe_all_clients` (tonutils_adnlctl/metrics.py:205-213): `Probe.ProbeAll`.
- `ProviderStatus` (tonutils_adnlctl/status.py:9-32): `Status.ProviderStatus`.
- `annotate_seqno_lags` (tonutils_adnlctl/status.py:35-68): `Status.MaxSeqno`,
  `Status.MaxShards`, `Status.AnnotateSeqno`, `Status.AnnotateSeqnoLags`.
- `annotate_time_lags` (tonutils_adnlctl/status.py:71-87): `Status.MaxTime`,
  `Status.AnnotateTime`, `Status.AnnotateTimeLags`.
- `build_legend` (tonutils_adnlctl/status.py:90-136): `Status.BuildLegend`, `Status.LegendOf`.
- `print_status` (tonutils_adnlctl/status.py:139-198): `Status.BuildRow`,
  `Status.RowStyleOf`, `Status.StatusTable`, `Status.LegendTable`,
  `Status.StatusReport`.
- `format_elapsed` (tonutils_adnlctl/utils.py:11-26): `Utils.FormatElapsed`.
- `color` (tonutils_adnlctl/utils.py:29-37): `Utils.Color`.
- `print_table` (tonutils_adnlctl/utils.py:40-68): `Utils.Widths`,
  `Utils.FormatLine`, `Utils.FormatTable`.
- `parse_network` (tonutils_adnlctl/utils.py:71-77): `Utils.ParseNetwork`.

## Model

| member | source | states |
|---|---|---|
| Decimal.NatRoundTrip | tonutils_adnlctl/status.py:51 | the decimal text `str` gives a natural number reads back as that number |
| Decimal.IntRoundTrip | tonutils_adnlctl/status.py:51 | `str` of any integer, sign included, parses back to the same integer |
| Decimal.IntToStringInjective | tonutils_adnlctl/status.py:51 | different seqnos (or times) never get the same label text |
| Text.LJust | tonutils_adnlctl/utils.py:56 | `ljust`: the result is as long as the text or the width, whichever is more; the text is its prefix and the rest are spaces |
| Text.LowerSpec | tonutils_adnlctl/utils.py:72 | lowering leaves no letter A–Z behind, changes a text iff it has an upper-case letter, and lowering twice is lowering once |
| Text.SplitJoin | tonutils_adnlctl/metrics.py:108 | joining parts with a separator none of them contains can be split back into exactly those parts |
| Text.JoinLength | tonutils_adnlctl/utils.py:57 | a join is as long as its parts together plus one separator between each pair |
| Text.RenderRoundTrip | tonutils_adnlctl/metrics.py:98-108 | a space-joined list of `<n><unit>` tokens reads back as the same amounts and units |
| Text.RenderStartsWithDigit | tonutils_adnlctl/metrics.py:105-106 | a non-empty list of tokens renders to text that starts with a digit, so never to `"(?)"` |
| ShardHex.ShardId | tonutils_adnlctl/metrics.py:179 | a shard id exists exactly for values in [−2^63, 2^63) (otherwise the conversion overflows); it is 16 lower-case hex characters |
| ShardHex.ShardIdRoundTrip | tonutils_adnlctl/metrics.py:179 | reading the 16 hex characters as a big-endian two's-complement 64-bit value gives the shard back |
| ShardHex.ShardIdInjective | tonutils_adnlctl/metrics.py:179-180 | two different shards never share a key in the shard map |
| ShardHex.HexRoundTrip | tonutils_adnlctl/metrics.py:179 | `bytes.hex()` of any byte string decodes back to the same bytes |
| ShardHex.BigEndianRoundTrip | tonutils_adnlctl/metrics.py:179 | `to_bytes(n, "big")` of a value below 256^n reads back as the same value |
| ShardHex.MasterchainShardId | tonutils_adnlctl/metrics.py:129 | the masterchain shard −2^63 encodes as `8000000000000000` |
| Archive.MaxDays | tonutils_adnlctl/metrics.py:64-67 | `max_days` is the floor of the seconds since the first block, divided by 86400 |
| Archive.SearchDepth | tonutils_adnlctl/metrics.py:81-91 | probes only lie in [0, max_days] and number at most ⌊log2(max_days+1)⌋+1; there are none and the result is 0 when max_days < 0; a non-zero result is a probe that succeeded and no successful probe exceeds it; for a lookup that, within [0, max_days], succeeds exactly up to `k` days, the result is `k` clamped to [0, max_days] |
| Archive.SearchFullArchive | tonutils_adnlctl/metrics.py:81-91 | a node that answers every day in [0, max_days] is reported `max_days` deep |
| Archive.Decomposition | tonutils_adnlctl/metrics.py:93-96 | years·365 + months·30 + days recomposes the depth, with months ≤ 12, days < 30 and months·30 + days < 365, so whole years are taken first (365 days is `1y`, never `12m 5d`) |
| Archive.SumDepthParts | tonutils_adnlctl/metrics.py:93-104 | the non-zero components in the order y, m, d, each with a positive amount, add up to the depth |
| Archive.DepthLabelRoundTrip | tonutils_adnlctl/metrics.py:93-108 | the label reads back as the depth it was made from; the reader accepts only positive components in the order y, m, d |
| Archive.DepthLabelUnknownIff | tonutils_adnlctl/metrics.py:105-106 | the label is `"(?)"` exactly when the depth is 0 days |
| Archive.CheckArchiveDepth | tonutils_adnlctl/metrics.py:63-108 | before the first block the label is `"(?)"` and nothing is probed; the label always reads back as a depth within [0, max_days]; a depth other than `"(?)"` was confirmed by the lookup, and no successful probe lies deeper than the depth read back; at most ⌊log2(max_days+1)⌋+1 probes, all in [0, max_days]; for a lookup that, within [0, max_days], succeeds exactly up to `k` days, the label is that of the clamped threshold |
| Archive.LadderShape | tonutils_adnlctl/metrics.py:113-123 | the ladder has 9 rungs with strictly increasing offsets, distinct labels, none of them `"(?)"` |
| Archive.LastSuccess | tonutils_adnlctl/metrics.py:139-143 | reference definition: the last index whose probe succeeded, or none when all failed |
| Archive.ScanIsLastSuccess | tonutils_adnlctl/metrics.py:139-143 | the overwriting scan returns the label of the last successful rung, or its initial value when none succeeded |
| Archive.QuickLabelSpec | tonutils_adnlctl/metrics.py:139-143 | quick mode says `"(?)"` exactly when every probe failed, and otherwise names the last rung that succeeded |
| Archive.QuickDepthUnderThreshold | tonutils_adnlctl/metrics.py:111-143 | for a lookup that, within the ladder's 365 days, succeeds exactly up to `k` days, quick mode says `"(?)"` iff `k` < 1 day, and otherwise names the largest rung not beyond `k` |
| Archive.LadderResultsUnderThreshold | tonutils_adnlctl/metrics.py:124-136 | under a lookup that, within the ladder's 365 days, succeeds exactly up to `k` days, rung `i` of the ladder succeeds iff its age is at most `k` days |
| Archive.QuickDepthThreeMonths | tonutils_adnlctl/metrics.py:113-143 | successes up to any depth in [90, 180) days give `"≈ 3m"` |
| Archive.CheckArchive | tonutils_adnlctl/metrics.py:185-194 | exact mode's label reads back as a depth confirmed by the lookup (or is `"(?)"`), and under a threshold lookup over [0, max_days] it is the label of the clamped threshold; quick mode gives the ladder label; under a threshold lookup (over the days the mode probes) the result is `"(?)"` exactly when exact mode finds a clamped depth of 0, or quick mode's threshold is below one day |
| Probe.ShardMapSpec | tonutils_adnlctl/metrics.py:176-181 | the shard map exists iff every shard fits in 64 signed bits; its keys are exactly the listed shards' ids; each id holds the seqno of the last entry for that shard |
| Probe.KeyedMapLastWins | tonutils_adnlctl/metrics.py:176-181 | for any key function that never gives two shards the same key, each listed shard ends up holding the seqno of its last entry, because later assignments overwrite earlier ones |
| Probe.WithHead | tonutils_adnlctl/metrics.py:171-181 | only the head seqno and the shard map change; the head is stored whenever one is reported; the shard map is left alone or replaced by the complete map, never a partial one |
| Probe.WithArchive | tonutils_adnlctl/metrics.py:183-196 | only the label and `archive_unknown` change; a returned label is stored, and the flag is raised when it is `"(?)"` and never cleared |
| Probe.ProbeClient | tonutils_adnlctl/metrics.py:146-198 | a failed connect gives the bare address record; otherwise the measurements are copied; the head seqno is recorded whenever one is reported; the shard map is empty or the complete map, never partial; `archive_unknown` holds exactly when the label is `"(?)"`; no lag flag or label is set |
| Probe.ShardFetchFailureKeepsHead | tonutils_adnlctl/metrics.py:171-181 | a shard fetch that fails after the head was read leaves the head seqno set and the shard map empty |
| Probe.ProbeAll | tonutils_adnlctl/metrics.py:205-213 | one record per node in configuration order, each carrying its position as index and its node's host and port; no lag flag raised (`mc_lag`, `shard_lag`, `time_lag` all false), `archive_unknown` as the probe set it |
| Probe.FleetSeqnoFlags | tonutils_adnlctl/status.py:47-66 | after probing and seqno annotation, `mc_lag` is set exactly when the head is negative or behind another node's head, and `shard_lag` exactly when that is not so but a shard is negative or behind another node's |
| Probe.FleetTimeFlags | tonutils_adnlctl/status.py:71-87 | after probing and both annotations, `time_lag` is set exactly when another node reports a later time, given a positive time exists |
| Probe.ProbeClientWithArchive | tonutils_adnlctl/metrics.py:183-196 | an archive check that raises leaves the label absent and the flag false; otherwise quick mode stores the ladder label, exact mode under a threshold lookup stores the label of the clamped threshold, and `archive_unknown` means the depth found was zero (exact) or below one day (quick) |
| Status.MaxPresent | tonutils_adnlctl/status.py:36-39 | the maximum is at least 0, at least every present value, and is either 0 or one of the values |
| Status.MaxShardsKeys | tonutils_adnlctl/status.py:41-45 | `max_shards` has exactly the shard ids some record reports |
| Status.MaxShardsUpper | tonutils_adnlctl/status.py:41-45 | no record reports a shard seqno above its `max_shards` entry |
| Status.MaxShardsAttained | tonutils_adnlctl/status.py:41-45 | each `max_shards` entry is non-negative and is either 0 or a seqno some record reports for that shard |
| Status.MaxSeqnoSpec | tonutils_adnlctl/status.py:36-39 | a seqno is below the fleet head iff it is negative or some record reports a larger head |
| Status.MaxShardsSpec | tonutils_adnlctl/status.py:56-63 | a record has a shard below `max_shards` iff one of its shards is negative or below what another record reports for it |
| Status.AnnotateSeqnoFrame | tonutils_adnlctl/status.py:47-68 | one record's annotation changes only `mc_lag`, `shard_lag` and the seqno label, skips records without a seqno, and never clears a flag |
| Status.AnnotateSeqnoLagsFrame | tonutils_adnlctl/status.py:47-68 | the same frame, for every record of the fleet |
| Status.AnnotateSeqnoLagsSpec | tonutils_adnlctl/status.py:47-68 | `mc_lag` is raised iff the head is negative or behind another node's head (label `"<v> (!)"`), since the fleet maximum starts at 0; otherwise `shard_lag` is raised iff a shard is negative or behind another node's (label `"<v> (!!)"`, one mark only); otherwise the label is exactly `str(v)` |
| Status.AnnotateSeqnoTwice | tonutils_adnlctl/status.py:47-68 | annotating a record twice against the same maxima is the same as annotating it once |
| Status.AnnotateSeqnoLagsIdempotent | tonutils_adnlctl/status.py:35-68 | running `annotate_seqno_lags` twice gives the same records as running it once |
| Status.AnnotateSeqnoLagsKeepsMaxima | tonutils_adnlctl/status.py:35-45 | the seqno pass leaves every head and shard map untouched, so a second pass computes the same fleet maxima |
| Status.AnnotateTimeLags | tonutils_adnlctl/status.py:71-87 | the pass keeps the length, changes only `time_lag` and the time label, skips records without a time, and never clears `time_lag` |
| Status.MaxTimeSpec | tonutils_adnlctl/status.py:72-77 | the maximum time is positive iff some record reports a positive time; then a time is below it iff another record reports a later time |
| Status.AnnotateTimeLagsNoop | tonutils_adnlctl/status.py:77-78 | when no record reports a positive time, nothing changes |
| Status.AnnotateTimeLagsSpec | tonutils_adnlctl/status.py:80-87 | `time_lag` is raised with label `"<v> (*)"` iff another node reports a later time; otherwise the label is `str(v)` |
| Status.AnnotateTimeLagsIdempotent | tonutils_adnlctl/status.py:71-87 | running `annotate_time_lags` twice gives the same records as running it once |
| Status.AnnotateTimeFlag | tonutils_adnlctl/status.py:139-141 | after both passes of `print_status`, a record with a time carries `time_lag` and `"<v> (*)"` exactly when another node reports a later time (given a positive time somewhere); the seqno pass run first cannot change this |
| Status.BuildLegendMarks | tonutils_adnlctl/status.py:93-136 | each of `(*)`, `(?)`, `(!)`, `(!!)` is in the legend iff some record has its flag |
| Status.BuildLegendOrder | tonutils_adnlctl/status.py:98-136 | the legend has at most 4 rows, in the fixed order `(*)`, `(?)`, `(!)`, `(!!)`, so no mark appears twice |
| Status.LegendOfOrder | tonutils_adnlctl/status.py:93-136 | whichever of the four conditions hold, the rows come out in the fixed order `(*)`, `(?)`, `(!)`, `(!!)` |
| Status.BuildRow | tonutils_adnlctl/status.py:143-172 | every row has one cell per header (10) |
| Status.SeqnoCellAgreesWithFlags | tonutils_adnlctl/status.py:169-180 | for a record that starts unflagged, the seqno cell carries `(!)` or `(!!)` exactly when the matching flag reddens the row, and is otherwise the plain seqno |
| Status.TimeCellAgreesWithFlag | tonutils_adnlctl/status.py:168-178 | for a record that starts without a time flag, the time cell carries `(*)` exactly when `time_lag` yellows the row |
| Status.RowStyleOf | tonutils_adnlctl/status.py:175-180 | bright red iff a head or shard lag; plain yellow iff neither, but a time lag or unknown archive; no style iff no flag |
| Status.StatusReportPrints | tonutils_adnlctl/status.py:139-198 | the report never fails the row-length check; it is the header line and one line per record, plus, when the legend is non-empty, a blank line, the legend header and one line per mark |
| Status.LegendTablePrints | tonutils_adnlctl/status.py:184-198 | the legend table always passes the row check and has one line per mark plus its header |
| Utils.ElapsedDecomposition | tonutils_adnlctl/utils.py:16-20 | hours·3600 + minutes·60 + seconds recomposes the total, with minutes < 60 and seconds < 60 |
| Utils.FormatElapsedRoundTrip | tonutils_adnlctl/utils.py:11-26 | under 1000 ms the text reads back as those milliseconds; otherwise it reads back as the whole seconds, in the canonical shape `Hh Mm Ss`, `Mm Ss` or `Ss` |
| Utils.Color | tonutils_adnlctl/utils.py:29-37 | the result is the optional bright code, then the optional colour, then the text, then the reset code, and nothing else |
| Utils.ColorRoundTrip | tonutils_adnlctl/utils.py:29-37 | stripping the same codes from a coloured text gives the text back |
| Utils.ParseNetworkSpec | tonutils_adnlctl/utils.py:71-77 | mainnet and testnet are accepted in any letter case; every other name is an error that carries the lowered name |
| Utils.LowerEqualsWord | tonutils_adnlctl/utils.py:72-75 | a name lowers to a lower-case word iff it spells that word ignoring case |
| Utils.CheckedWidths | tonutils_adnlctl/utils.py:45-53 | error iff some row's length differs from the header count; otherwise each width is at least its header and every cell in its column, and equals one of them |
| Utils.FormatTable | tonutils_adnlctl/utils.py:40-68 | the table fails iff a row has the wrong length, before any line exists; otherwise it is the header line followed by one line per row |
| Utils.FormatLineLayout | tonutils_adnlctl/utils.py:55-57 | a formatted line is sum(widths) + 2·(columns−1) long, and cell `i` starts at its column, padded to that column's width |
| Utils.TableLayout | tonutils_adnlctl/utils.py:45-63 | the header line and every row line have the same length, and every cell appears whole at its column's start |

## Left out

- `cli.py` is not part of this model: argument parsing, `asyncio.run`, the exit code and the printing of the report.
- `load_config` and `create_balancer` (file and HTTP I/O, JSON parsing, the balancer of the `tonutils` library) are not modelled.
- Network calls are not modelled: connect, ping, version, time, refresh, block lookup, shard listing, close. Their outcomes are inputs: `Replies` fields (`None` for a failure) and the `lookup` predicate.
- Clocks are inputs: `connect_ms`, `request_ms` and `now` are given, not measured.
- asyncio concurrency is not modelled. The ladder's gathered results are a sequence aligned with the rungs. The fleet is a sequence built over node indices.
- `ping_ms` is a float in the source, printed with `:.0f`; the model keeps whole milliseconds.
- `format_elapsed` takes float seconds in the source; the model takes integer milliseconds, so `int(seconds * 1000)` and its float rounding are not modelled.
- Utils.FormatElapsedRoundTrip: stated for non-negative durations only. Negative milliseconds still format, as `"<ms>ms"`.
- Text.Lower: lowers ASCII letters only. For `parse_network` this matters only for the error message, because no other character lowers into the letters of "mainnet" or "testnet".
- Utils.ParseNetworkSpec: the error carries the lowered name, not the `repr` text of the source's message.
- The colorama escape codes are constants holding their ANSI values, which are not checked against colorama itself. The `print` calls become a list of lines, and the blank line before the legend is one empty line.
- Status.BuildRow: stated only for the row's length. The seqno and time cells are covered by Status.SeqnoCellAgreesWithFlags and Status.TimeCellAgreesWithFlag; the other cells are defined but carry no separate contract.
- `client.close()` in the `finally` block of `probe_client` has no effect on the record and is not modelled.

=== FILE: archive.dfy ===
/** Archive-depth estimation (metrics.py, `check_archive_depth` and
    `check_archive_depth_quick`): how many days back a lite server still
    answers `lookup_block`. The network lookup is the parameter `lookup`,
    from a Unix time to "the lookup at that time succeeded"; probing `d`
    days back asks `lookup(now - d * Day)`. */
module Archive {

  import opened Wrappers
  import opened Arith
  import opened Decimal
  import opened Text

  const Day: int := 86400
  /** Unix time of the first masterchain block. */
  const FirstBlockUtime: int := 1573822385
  /** The label for "no depth could be established". */
  const UnknownLabel: string := "(?)"

  /** `(now - first_block_utime) // day`. Python's `//` floors, and so does
      Dafny's `/` for a positive divisor. */
  function MaxDays(now: int): (d: int)
    ensures d * Day <= now - FirstBlockUtime < (d + 1) * Day
  {
    (now - FirstBlockUtime) / Day
  }

  /** The lookup `days` days before `now` (the inner `_probe`). */
  function ProbeDays(lookup: int -> bool, now: int, days: int): bool {
    lookup(now - days * Day)
  }

  /** Within the first `span` days back the node answers exactly the lookups at
      most `k` days back: the retention model binary search relies on. Days
      beyond `span` are never probed, so nothing is assumed about them. */
  ghost predicate ThresholdWithin(lookup: int -> bool, now: int, k: int, span: int) {
    forall d :: 0 <= d <= span ==> (ProbeDays(lookup, now, d) <==> d <= k)
  }

  function Clamp(k: int, hi: int): (r: nat)
    ensures r == 0 || r <= hi
  {
    if k <= 0 || hi <= 0 then 0 else if k <= hi then k else hi
  }

  /** Number of binary digits of `n`, i.e. floor(log2 n) + 1 for n >= 1. */
  function BitLength(n: nat): nat {
    if n == 0 then 0 else 1 + BitLength(n / 2)
  }

  function Pow2(e: nat): (p: nat)
    ensures p >= 1
  {
    if e == 0 then 1 else 2 * Pow2(e - 1)
  }

  lemma {:induction false} BitLengthMonotone(a: nat, b: nat)
    requires a <= b
    ensures BitLength(a) <= BitLength(b)
    decreases b
  {
    if a > 0 {
      BitLengthMonotone(a / 2, b / 2);
    }
  }

  /** `BitLength(n)` is the `e` with 2^(e-1) <= n < 2^e. */
  lemma {:induction false} BitLengthBounds(n: nat)
    requires n >= 1
    ensures Pow2(BitLength(n) - 1) <= n < Pow2(BitLength(n))
    decreases n
  {
    if n >= 2 {
      BitLengthBounds(n / 2);
    }
  }

  /** Either half left after probing the midpoint of `[l, r]` has at least one
      binary digit fewer than the range had. */
  lemma HalvedRange(l: int, r: int)
    requires 0 <= l <= r
    ensures var m := (l + r) / 2;
            && l <= m <= r
            && BitLength(r - m) + 1 <= BitLength(r - l + 1)
            && BitLength(m - l) + 1 <= BitLength(r - l + 1)
  {
    var m := (l + r) / 2;
    var size := r - l + 1;
    BitLengthMonotone(r - m, size / 2);
    BitLengthMonotone(m - l, size / 2);
    assert BitLength(size) == 1 + BitLength(size / 2);
  }

  // ---------------------------------------------------------------------------
  // Exact mode
  // ---------------------------------------------------------------------------

  /** What the binary search keeps true: the window `[left, right]` still holds
      the threshold, `bestDays` is the last success (just below `left`), every
      probe lies in range and the probes made plus those the window can still
      take fit in `BitLength(max_days + 1)`. */
  ghost predicate SearchInvariant(lookup: int -> bool, now: int, left: int, right: int, bestDays: nat, probes: seq<int>) {
    var maxDays := MaxDays(now);
    && 0 <= left
    && right <= maxDays
    && (maxDays >= 0 ==> left <= right + 1)
    && (maxDays < 0 ==> right == maxDays && probes == [])
    && (forall i :: 0 <= i < |probes| ==> 0 <= probes[i] <= maxDays)
    && (maxDays >= 0 ==> |probes| + BitLength(right - left + 1) <= BitLength(maxDays + 1))
    && (left == 0 ==> bestDays == 0)
    && (left > 0 ==> bestDays == left - 1 && bestDays in probes && ProbeDays(lookup, now, bestDays))
    && (forall i :: 0 <= i < |probes| && ProbeDays(lookup, now, probes[i]) ==> probes[i] < left)
    && (right < maxDays ==> 0 <= right + 1 && !ProbeDays(lookup, now, right + 1))
  }

  /** A successful probe at the midpoint moves `left` past it and keeps the invariant. */
  lemma SearchStepFound(lookup: int -> bool, now: int, left: int, right: int, bestDays: nat, probes: seq<int>)
    requires SearchInvariant(lookup, now, left, right, bestDays, probes) && left <= right
    requires ProbeDays(lookup, now, (left + right) / 2)
    ensures var mid := (left + right) / 2;
            SearchInvariant(lookup, now, mid + 1, right, mid, probes + [mid])
  {
    var mid := (left + right) / 2;
    HalvedRange(left, right);
    var after := probes + [mid];
    assert forall i :: 0 <= i < |probes| ==> after[i] == probes[i];
    assert after[|probes|] == mid;
  }

  /** A failed probe at the midpoint moves `right` below it and keeps the invariant. */
  lemma SearchStepMissed(lookup: int -> bool, now: int, left: int, right: int, bestDays: nat, probes: seq<int>)
    requires SearchInvariant(lookup, now, left, right, bestDays, probes) && left <= right
    requires !ProbeDays(lookup, now, (left + right) / 2)
    ensures var mid := (left + right) / 2;
            SearchInvariant(lookup, now, left, mid - 1, bestDays, probes + [mid])
  {
    var mid := (left + right) / 2;
    HalvedRange(left, right);
    var after := probes + [mid];
    assert forall i :: 0 <= i < |probes| ==> after[i] == probes[i];
    assert after[|probes|] == mid;
  }

  /** The binary search of `check_archive_depth` over `[0, MaxDays(now)]`.
      `probes` lists the day counts looked up, in order. */
  method SearchDepth(lookup: int -> bool, now: int) returns (bestDays: nat, probes: seq<int>)
    ensures MaxDays(now) < 0 ==> bestDays == 0 && probes == []
    ensures forall i :: 0 <= i < |probes| ==> 0 <= probes[i] <= MaxDays(now)
    ensures MaxDays(now) >= 0 ==> |probes| <= BitLength(MaxDays(now) + 1)
    ensures bestDays == 0 || (bestDays in probes && ProbeDays(lookup, now, bestDays))
    ensures forall i :: 0 <= i < |probes| && ProbeDays(lookup, now, probes[i]) ==> probes[i] <= bestDays
    ensures forall k :: ThresholdWithin(lookup, now, k, MaxDays(now)) ==> bestDays == Clamp(k, MaxDays(now))
  {
    var left := 0;
    var right := MaxDays(now);
    bestDays := 0;
    probes := [];
    while left <= right
      invariant SearchInvariant(lookup, now, left, right, bestDays, probes)
      decreases right - left + 1
    {
      var mid := (left + right) / 2;
      if ProbeDays(lookup, now, mid) {
        SearchStepFound(lookup, now, left, right, bestDays, probes);
        bestDays := mid;
        left := mid + 1;
      } else {
        SearchStepMissed(lookup, now, left, right, bestDays, probes);
        right := mid - 1;
      }
      probes := probes + [mid];
    }
    SearchDone(lookup, now, left, right, bestDays, probes);
  }

  /** A node that answers every probed day (a full archive node) is reported
      as deep as the chain is old. */
  method SearchFullArchive(lookup: int -> bool, now: int) returns (bestDays: nat)
    requires forall d :: 0 <= d <= MaxDays(now) ==> ProbeDays(lookup, now, d)
    ensures MaxDays(now) >= 0 ==> bestDays == MaxDays(now)
    ensures MaxDays(now) < 0 ==> bestDays == 0
  {
    var probes;
    bestDays, probes := SearchDepth(lookup, now);
    assert ThresholdWithin(lookup, now, MaxDays(now), MaxDays(now));
  }

  /** When the window is empty, the invariant gives everything the search promises. */
  lemma SearchDone(lookup: int -> bool, now: int, left: int, right: int, bestDays: nat, probes: seq<int>)
    requires SearchInvariant(lookup, now, left, right, bestDays, probes) && right < left
    ensures MaxDays(now) < 0 ==> bestDays == 0 && probes == []
    ensures forall i :: 0 <= i < |probes| ==> 0 <= probes[i] <= MaxDays(now)
    ensures MaxDays(now) >= 0 ==> |probes| <= BitLength(MaxDays(now) + 1)
    ensures bestDays == 0 || (bestDays in probes && ProbeDays(lookup, now, bestDays))
    ensures forall i :: 0 <= i < |probes| && ProbeDays(lookup, now, probes[i]) ==> probes[i] <= bestDays
    ensures forall k :: ThresholdWithin(lookup, now, k, MaxDays(now)) ==> bestDays == Clamp(k, MaxDays(now))
  {
    assert MaxDays(now) < 0 ==> left == 0;
    forall k | ThresholdWithin(lookup, now, k, MaxDays(now))
      ensures bestDays == Clamp(k, MaxDays(now))
    {
      SearchConclusion(lookup, now, k, left, right, bestDays);
    }
  }

  /** Where the search stops pins down the threshold: the last success sits just
      below `left`, the first failure just above `right`. */
  lemma SearchConclusion(lookup: int -> bool, now: int, k: int, left: int, right: int, bestDays: nat)
    requires ThresholdWithin(lookup, now, k, MaxDays(now))
    requires 0 <= left && right < left && right <= MaxDays(now)
    requires MaxDays(now) >= 0 ==> left <= right + 1
    requires MaxDays(now) < 0 ==> right == MaxDays(now) && left == 0
    requires left == 0 ==> bestDays == 0
    requires left > 0 ==> bestDays == left - 1 && ProbeDays(lookup, now, bestDays)
    requires right < MaxDays(now) ==> 0 <= right + 1 && !ProbeDays(lookup, now, right + 1)
    ensures bestDays == Clamp(k, MaxDays(now))
  {
    if left > 0 {
      assert ProbeDays(lookup, now, left - 1);
    }
    if right < MaxDays(now) {
      assert !ProbeDays(lookup, now, right + 1);
    }
  }

  // ---------------------------------------------------------------------------
  // Depth label
  // ---------------------------------------------------------------------------

  /** Whole 365-day years in `best`. */
  function Years(best: nat): nat { best / 365 }
  /** Whole 30-day months in what the years leave. */
  function Months(best: nat): nat { best % 365 / 30 }
  /** Days left after years and months. */
  function RestDays(best: nat): nat { best % 365 % 30 }

  /** The components of the label: only the non-zero ones, in the order y, m, d. */
  function DepthParts(best: nat): seq<Quantity> {
    (if Years(best) > 0 then [Quantity(Years(best), "y")] else [])
    + (if Months(best) > 0 then [Quantity(Months(best), "m")] else [])
    + (if RestDays(best) > 0 then [Quantity(RestDays(best), "d")] else [])
  }

  /** The label `check_archive_depth` returns for `best_days`. */
  function DepthLabel(best: nat): string {
    var parts := DepthParts(best);
    if |parts| == 0 then UnknownLabel else Render(parts)
  }

  function UnitRank(unit: string): Option<nat> {
    if unit == "y" then Some(0) else if unit == "m" then Some(1) else if unit == "d" then Some(2) else None
  }

  function RankDays(rank: nat): nat {
    if rank == 0 then 365 else if rank == 1 then 30 else 1
  }

  /** Sums labelled components whose units appear in the order y, m, d, each at
      most once and with a positive amount. */
  function SumParts(qs: seq<Quantity>, nextRank: nat): Option<nat>
    decreases |qs|
  {
    if |qs| == 0 then Some(0)
    else
      match UnitRank(qs[0].unit)
      case None => None
      case Some(r) =>
        if r < nextRank || qs[0].amount == 0 then None
        else
          match SumParts(qs[1..], r + 1)
          case None => None
          case Some(rest) => Some(qs[0].amount * RankDays(r) + rest)
  }

  /** Reads a depth label back as a number of days. */
  function ParseDepthLabel(s: string): Option<nat> {
    if s == UnknownLabel then Some(0)
    else
      match ParseQuantities(s)
      case None => None
      case Some(qs) => if |qs| == 0 then None else SumParts(qs, 0)
  }

  /** Years, months and days recompose `best`; months never exceed 12 and days stay below 30. */
  lemma Decomposition(best: nat)
    ensures Years(best) * 365 + Months(best) * 30 + RestDays(best) == best
    ensures Months(best) <= 12 && RestDays(best) < 30
    ensures Months(best) * 30 + RestDays(best) < 365
  {
  }

  lemma SumDepthParts(best: nat)
    ensures SumParts(DepthParts(best), 0) == Some(best)
  {
    var y, m, d := Years(best), Months(best), RestDays(best);
    var qy := if y > 0 then [Quantity(y, "y")] else [];
    var qm := if m > 0 then [Quantity(m, "m")] else [];
    var qd := if d > 0 then [Quantity(d, "d")] else [];
    var tail := qm + qd;
    assert SumParts(qd, 2) == Some(d);
    assert SumParts(qd, 1) == Some(d);
    assert SumParts(qd, 0) == Some(d);
    if m > 0 {
      assert tail[1..] == qd;
    }
    assert SumParts(tail, 1) == Some(m * 30 + d);
    assert SumParts(tail, 0) == Some(m * 30 + d);
    if y > 0 {
      var all := qy + tail;
      assert all[0] == Quantity(y, "y");
      assert all[1..] == tail;
      assert SumParts(all, 0) == Some(y * 365 + m * 30 + d);
    } else {
      assert qy + tail == tail;
    }
    assert qy + tail == DepthParts(best);
    Decomposition(best);
  }

  /** The label is a faithful encoding of the day count: reading it back gives `best`. */
  lemma DepthLabelRoundTrip(best: nat)
    ensures ParseDepthLabel(DepthLabel(best)) == Some(best)
  {
    var parts := DepthParts(best);
    if |parts| == 0 {
      Decomposition(best);
    } else {
      RenderStartsWithDigit(parts);
      assert DepthLabel(best) != UnknownLabel;
      forall k | 0 <= k < |parts|
        ensures ValidUnit(parts[k].unit)
      {
      }
      RenderRoundTrip(parts);
      SumDepthParts(best);
    }
  }

  /** The label is "(?)" exactly when the search found no day. */
  lemma DepthLabelUnknownIff(best: nat)
    ensures DepthLabel(best) == UnknownLabel <==> best == 0
  {
    DepthLabelRoundTrip(best);
  }

  /** `check_archive_depth`: the search followed by the label. */
  method CheckArchiveDepth(lookup: int -> bool, now: int) returns (depth: string, probes: seq<int>)
    ensures MaxDays(now) < 0 ==> depth == UnknownLabel && probes == []
    ensures ParseDepthLabel(depth).Some?
    ensures ParseDepthLabel(depth).value == 0 || ParseDepthLabel(depth).value <= MaxDays(now)
    ensures depth == UnknownLabel || ProbeDays(lookup, now, ParseDepthLabel(depth).value)
    ensures forall i :: 0 <= i < |probes| ==> 0 <= probes[i] <= MaxDays(now)
    ensures MaxDays(now) >= 0 ==> |probes| <= BitLength(MaxDays(now) + 1)
    ensures forall i :: 0 <= i < |probes| && ProbeDays(lookup, now, probes[i])
              ==> probes[i] <= ParseDepthLabel(depth).value
    ensures forall k :: ThresholdWithin(lookup, now, k, MaxDays(now)) ==> depth == DepthLabel(Clamp(k, MaxDays(now)))
  {
    var bestDays;
    bestDays, probes := SearchDepth(lookup, now);
    depth := DepthLabel(bestDays);
    DepthLabelRoundTrip(bestDays);
    DepthLabelUnknownIff(bestDays);
  }

  // ---------------------------------------------------------------------------
  // Quick mode
  // ---------------------------------------------------------------------------

  /** One entry of the fixed ladder: its label and how many days back it probes. */
  datatype Rung = Rung(text: string, days: nat)

  const Ladder: seq<Rung> := [
    Rung("≈ 1d", 1),
    Rung("≈ 3d", 3),
    Rung("≈ 7d", 7),
    Rung("≈ 14d", 14),
    Rung("≈ 1m", 30),
    Rung("≈ 3m", 3 * 30),
    Rung("≈ 6m", 6 * 30),
    Rung("≈ 9m", 9 * 30),
    Rung("≈ 1y", 365)
  ]

  /** How far back quick mode looks: its furthest rung. */
  const QuickSpan: nat := Ladder[|Ladder| - 1].days

  /** How far back a mode looks: the whole chain for the binary search, the
      furthest rung for the ladder. */
  function ProbedSpan(now: int, useExact: bool): int {
    if useExact then MaxDays(now) else QuickSpan
  }

  /** The ladder goes strictly further back at every step, and its labels are
      distinct and never the unknown marker. */
  lemma LadderShape()
    ensures |Ladder| == 9
    ensures forall i, j :: 0 <= i < j < |Ladder| ==> Ladder[i].days < Ladder[j].days
    ensures forall i, j :: 0 <= i < j < |Ladder| ==> Ladder[i].text != Ladder[j].text
    ensures forall i :: 0 <= i < |Ladder| ==> Ladder[i].text != UnknownLabel
  {
  }

  /** The forward scan of the source: every success overwrites the label kept so
      far; `zip` stops at the shorter of the two sequences. */
  function Scan(rungs: seq<Rung>, results: seq<bool>, acc: string): string
    decreases |rungs|
  {
    if |rungs| == 0 || |results| == 0 then acc
    else Scan(rungs[1..], results[1..], if results[0] then rungs[0].text else acc)
  }

  /** The label quick mode reports for the gathered ladder results. */
  function QuickLabel(results: seq<bool>): string {
    Scan(Ladder, results, UnknownLabel)
  }

  /** Reference definition: the largest index below `n` whose probe succeeded. */
  function LastSuccess(results: seq<bool>, n: nat): (r: Option<nat>)
    requires n <= |results|
    ensures r.None? ==> forall j :: 0 <= j < n ==> !results[j]
    ensures r.Some? ==> r.value < n && results[r.value]
                        && forall j :: r.value < j < n ==> !results[j]
  {
    if n == 0 then None else if results[n - 1] then Some(n - 1) else LastSuccess(results, n - 1)
  }

  /** Dropping the first result shifts the last success down by one, and the
      first result only matters when no later one succeeded. */
  lemma {:induction false} LastSuccessShift(results: seq<bool>, n: nat)
    requires 0 < n <= |results|
    ensures LastSuccess(results, n)
            == match LastSuccess(results[1..], n - 1)
               case Some(j) => Some(j + 1)
               case None => if results[0] then Some(0) else None
    decreases n
  {
    if n > 1 {
      assert results[1..][n - 2] == results[n - 1];
      if !results[n - 1] {
        LastSuccessShift(results, n - 1);
      }
    }
  }

  lemma {:induction false} ScanIsLastSuccess(rungs: seq<Rung>, results: seq<bool>, acc: string)
    ensures var n := Min(|rungs|, |results|);
            Scan(rungs, results, acc)
            == match LastSuccess(results, n) case None => acc case Some(j) => rungs[j].text
    decreases |rungs|
  {
    var n := Min(|rungs|, |results|);
    if n > 0 {
      var acc' := if results[0] then rungs[0].text else acc;
      ScanIsLastSuccess(rungs[1..], results[1..], acc');
      assert Min(|rungs[1..]|, |results[1..]|) == n - 1;
      LastSuccessShift(results, n);
    }
  }

  /** Quick mode reports the label of the largest ladder offset whose probe
      succeeded, and "(?)" exactly when none did. */
  lemma QuickLabelSpec(results: seq<bool>)
    requires |results| == |Ladder|
    ensures QuickLabel(results) == UnknownLabel <==> forall j :: 0 <= j < |Ladder| ==> !results[j]
    ensures forall j :: 0 <= j < |Ladder| && results[j] && (forall i :: j < i < |Ladder| ==> !results[i])
                        ==> QuickLabel(results) == Ladder[j].text
  {
    ScanIsLastSuccess(Ladder, results, UnknownLabel);
    LadderShape();
  }

  /** The nine lookups `check_archive_depth_quick` gathers, in ladder order. */
  function LadderResults(lookup: int -> bool, now: int): (results: seq<bool>)
    ensures |results| == |Ladder|
    ensures forall i :: 0 <= i < |Ladder| ==> results[i] == ProbeDays(lookup, now, Ladder[i].days)
  {
    seq(|Ladder|, i requires 0 <= i < |Ladder| => ProbeDays(lookup, now, Ladder[i].days))
  }

  /** `check_archive_depth_quick`. */
  function QuickDepth(lookup: int -> bool, now: int): string {
    QuickLabel(LadderResults(lookup, now))
  }

  /** Under a threshold retention of `k` days, a rung's lookup succeeds exactly
      when its offset is within `k` days. */
  lemma LadderResultsUnderThreshold(lookup: int -> bool, now: int, k: int)
    requires ThresholdWithin(lookup, now, k, QuickSpan)
    ensures forall i :: 0 <= i < |Ladder| ==> (LadderResults(lookup, now)[i] <==> Ladder[i].days <= k)
  {
    var results := LadderResults(lookup, now);
    forall i | 0 <= i < |Ladder|
      ensures results[i] <==> Ladder[i].days <= k
    {
      assert results[i] == ProbeDays(lookup, now, Ladder[i].days);
    }
  }

  /** Under a threshold retention of `k` days, quick mode reports the furthest
      rung within `k` days, or "(?)" when even one day back fails. */
  lemma QuickDepthUnderThreshold(lookup: int -> bool, now: int, k: int)
    requires ThresholdWithin(lookup, now, k, QuickSpan)
    ensures QuickDepth(lookup, now) == UnknownLabel <==> k < Ladder[0].days
    ensures forall j :: 0 <= j < |Ladder| && Ladder[j].days <= k
                        && (j + 1 == |Ladder| || k < Ladder[j + 1].days)
                        ==> QuickDepth(lookup, now) == Ladder[j].text
  {
    var results := LadderResults(lookup, now);
    LadderResultsUnderThreshold(lookup, now, k);
    LadderShape();
    QuickLabelSpec(results);
    assert (forall j :: 0 <= j < |Ladder| ==> !results[j]) <==> k < Ladder[0].days by {
      if k < Ladder[0].days {
        forall j | 0 <= j < |Ladder|
          ensures !results[j]
        {
          if j > 0 {
            assert Ladder[0].days < Ladder[j].days;
          }
        }
      } else {
        assert results[0];
      }
    }
    forall j | 0 <= j < |Ladder| && Ladder[j].days <= k && (j + 1 == |Ladder| || k < Ladder[j + 1].days)
      ensures QuickDepth(lookup, now) == Ladder[j].text
    {
      forall i | j < i < |Ladder|
        ensures !results[i]
      {
        if i > j + 1 {
          assert Ladder[j + 1].days < Ladder[i].days;
        }
      }
    }
  }

  /** A node that answers up to 90 days back but not 180 is reported as "≈ 3m". */
  lemma QuickDepthThreeMonths(lookup: int -> bool, now: int, k: int)
    requires ThresholdWithin(lookup, now, k, QuickSpan)
    requires 90 <= k < 180
    ensures QuickDepth(lookup, now) == "≈ 3m"
  {
    QuickDepthUnderThreshold(lookup, now, k);
    assert Ladder[5].days <= k && k < Ladder[6].days;
  }

  /** The dispatch of `probe_client` between the two modes. */
  method CheckArchive(lookup: int -> bool, now: int, useExact: bool) returns (depth: string)
    ensures useExact ==> ParseDepthLabel(depth).Some?
    ensures useExact ==> depth == UnknownLabel || ProbeDays(lookup, now, ParseDepthLabel(depth).value)
    ensures useExact ==>
              forall k :: ThresholdWithin(lookup, now, k, MaxDays(now)) ==> depth == DepthLabel(Clamp(k, MaxDays(now)))
    ensures !useExact ==> depth == QuickDepth(lookup, now)
    ensures forall k :: ThresholdWithin(lookup, now, k, ProbedSpan(now, useExact)) ==> (depth == UnknownLabel <==> (
              if useExact then Clamp(k, MaxDays(now)) == 0 else k < Ladder[0].days))
  {
    if useExact {
      var probes;
      depth, probes := CheckArchiveDepth(lookup, now);
      forall k | ThresholdWithin(lookup, now, k, MaxDays(now))
        ensures depth == UnknownLabel <==> Clamp(k, MaxDays(now)) == 0
      {
        DepthLabelUnknownIff(Clamp(k, MaxDays(now)));
      }
    } else {
      depth := QuickDepth(lookup, now);
      forall k | ThresholdWithin(lookup, now, k, QuickSpan)
        ensures depth == UnknownLabel <==> k < Ladder[0].days
      {
        QuickDepthUnderThreshold(lookup, now, k);
      }
    }
  }
}

=== FILE: arith.dfy ===
/** Python's built-in `max` and `min` on two integers. */
module Arith {

  function Max(a: int, b: int): (m: int)
    ensures m >= a && m >= b
    ensures m == a || m == b
  {
    if a >= b then a else b
  }

  function Min(a: int, b: int): (m: int)
    ensures m <= a && m <= b
    ensures m == a || m == b
  {
    if a <= b then a else b
  }
}

=== FILE: decimal.dfy ===
/** Decimal rendering of integers, as Python's `str(int)` produces it, and the
    matching parser. The round-trip lemmas are what the labels built from
    sequence numbers, times and day counts rely on. */
module Decimal {

  import opened Wrappers

  predicate IsDigit(c: char) {
    '0' <= c <= '9'
  }

  predicate AllDigits(s: string) {
    forall i :: 0 <= i < |s| ==> IsDigit(s[i])
  }

  function DigitChar(d: nat): (c: char)
    requires d < 10
    ensures IsDigit(c)
  {
    ['0', '1', '2', '3', '4', '5', '6', '7', '8', '9'][d]
  }

  function DigitValue(c: char): (d: nat)
    requires IsDigit(c)
    ensures d < 10
    ensures DigitChar(d) == c
  {
    (c as int) - ('0' as int)
  }

  /** Canonical decimal rendering of a natural number: no sign, no leading zero. */
  function NatToString(n: nat): (s: string)
    ensures |s| >= 1
    ensures AllDigits(s)
    ensures s[0] == '0' ==> n == 0
    decreases n
  {
    if n < 10 then [DigitChar(n)] else NatToString(n / 10) + [DigitChar(n % 10)]
  }

  /** Python's `str(i)` for an int: a leading '-' for negatives. */
  function IntToString(i: int): (s: string)
    ensures |s| >= 1
    ensures (s[0] == '-') == (i < 0)
  {
    if i < 0 then "-" + NatToString(-i) else NatToString(i)
  }

  /** The number a string of decimal digits denotes (most significant first). */
  function DigitsValue(s: string): nat
    requires AllDigits(s)
    decreases |s|
  {
    if |s| == 0 then 0 else DigitsValue(s[..|s| - 1]) * 10 + DigitValue(s[|s| - 1])
  }

  /** Parses the output of `IntToString`: an optional '-' then one or more digits. */
  function ParseInt(s: string): (r: Option<int>)
  {
    if |s| >= 2 && s[0] == '-' && AllDigits(s[1..]) then Some(-(DigitsValue(s[1..]) as int))
    else if |s| >= 1 && AllDigits(s) then Some(DigitsValue(s) as int)
    else None
  }

  lemma {:induction false} NatRoundTrip(n: nat)
    ensures DigitsValue(NatToString(n)) == n
    decreases n
  {
    if n >= 10 {
      var s := NatToString(n);
      assert s[..|s| - 1] == NatToString(n / 10);
      NatRoundTrip(n / 10);
    }
  }

  lemma IntRoundTrip(i: int)
    ensures ParseInt(IntToString(i)) == Some(i)
  {
    var s := IntToString(i);
    if i < 0 {
      assert s[1..] == NatToString(-i);
      NatRoundTrip(-i);
    } else {
      NatRoundTrip(i);
    }
  }

  /** Distinct integers get distinct labels. */
  lemma IntToStringInjective(a: int, b: int)
    ensures IntToString(a) == IntToString(b) ==> a == b
  {
    IntRoundTrip(a);
    IntRoundTrip(b);
  }
}

=== FILE: probe.dfy ===
/** metrics.py, `probe_client` and `probe_all_clients`: how one node's answers
    become a `ProviderStatus`. Every network step is an input: the node
    client's answers are gathered in `Replies`, with `None` for a step that
    failed (its exception swallowed by the source). */
module Probe {

  import opened Wrappers
  import opened ShardHex
  import opened Status
  import opened Archive

  /** One entry of `get_all_shards_info`: the signed shard value and its seqno. */
  datatype ShardInfo = ShardInfo(shard: int, seqno: int)

  /** The node client's answers, step by step. */
  datatype Replies = Replies(
    connectMs: Option<int>,             // `measure_connect`: None when connect failed or timed out
    pingMs: Option<int>,                // `measure_ping`
    timeValue: Option<int>,             // `fetch_time`: None on failure or a non-integer reply
    version: Option<string>,            // `fetch_version`
    requestMs: Option<int>,             // `measure_request_time`
    lastMcSeqno: Option<int>,           // seqno of `last_mc_block`, None when there is none
    shardsInfo: Option<seq<ShardInfo>>, // `get_all_shards_info`, None when it raised
    archiveLabel: Option<string>)       // the archive check's label, None when it raised

  /** A fold of `(shard, seqno)` entries into a map under a partial key
      function: later entries overwrite earlier ones with the same key, and a
      shard without a key aborts the whole fold. */
  function KeyedMap(infos: seq<ShardInfo>, key: int -> Option<string>): Option<map<string, int>>
    decreases |infos|
  {
    if |infos| == 0 then Some(map[])
    else
      var n := |infos| - 1;
      match KeyedMap(infos[..n], key)
      case None => None
      case Some(m) =>
        match key(infos[n].shard)
        case None => None
        case Some(id) => Some(m[id := infos[n].seqno])
  }

  /** The shard loop: each shard's id is its hex encoding and later entries
      overwrite earlier ones with the same id; a shard value that does not fit
      in 64 signed bits raises, and then no map is produced at all. */
  function ShardMap(infos: seq<ShardInfo>): Option<map<string, int>> {
    KeyedMap(infos, ShardId)
  }

  lemma {:induction false} KeyedMapDefined(infos: seq<ShardInfo>, key: int -> Option<string>)
    ensures KeyedMap(infos, key).Some? <==> forall i :: 0 <= i < |infos| ==> key(infos[i].shard).Some?
    decreases |infos|
  {
    if |infos| > 0 {
      var n := |infos| - 1;
      KeyedMapDefined(infos[..n], key);
      assert forall i :: 0 <= i < n ==> infos[..n][i] == infos[i];
    }
  }

  lemma {:induction false} KeyedMapKeys(infos: seq<ShardInfo>, key: int -> Option<string>)
    requires KeyedMap(infos, key).Some?
    ensures forall id :: id in KeyedMap(infos, key).value <==>
              exists i :: 0 <= i < |infos| && key(infos[i].shard) == Some(id)
    decreases |infos|
  {
    if |infos| > 0 {
      var n := |infos| - 1;
      var init := infos[..n];
      KeyedMapKeys(init, key);
      var m := KeyedMap(init, key).value;
      var r := KeyedMap(infos, key).value;
      assert r == m[key(infos[n].shard).value := infos[n].seqno];
      forall id
        ensures id in r <==> exists i :: 0 <= i < |infos| && key(infos[i].shard) == Some(id)
      {
        if id in m {
          var i :| 0 <= i < |init| && key(init[i].shard) == Some(id);
          assert infos[i] == init[i];
        }
        if exists i :: 0 <= i < |infos| && key(infos[i].shard) == Some(id) {
          var i :| 0 <= i < |infos| && key(infos[i].shard) == Some(id);
          if i < n {
            assert init[i] == infos[i];
          }
        }
      }
    }
  }

  /** Under a key function that never gives two shards the same key, each
      shard's key holds the seqno of the last entry for that shard. */
  lemma {:induction false} KeyedMapLastWins(infos: seq<ShardInfo>, key: int -> Option<string>)
    requires KeyedMap(infos, key).Some?
    requires forall a, b :: key(a).Some? && key(a) == key(b) ==> a == b
    ensures forall i :: 0 <= i < |infos| && (forall j :: i < j < |infos| ==> infos[j].shard != infos[i].shard)
              ==> key(infos[i].shard).Some? && key(infos[i].shard).value in KeyedMap(infos, key).value
                  && KeyedMap(infos, key).value[key(infos[i].shard).value] == infos[i].seqno
    decreases |infos|
  {
    if |infos| > 0 {
      var n := |infos| - 1;
      var init := infos[..n];
      KeyedMapLastWins(init, key);
      var m := KeyedMap(init, key).value;
      var r := KeyedMap(infos, key).value;
      var last := key(infos[n].shard).value;
      assert r == m[last := infos[n].seqno];
      forall i | 0 <= i < |infos| && (forall j :: i < j < |infos| ==> infos[j].shard != infos[i].shard)
        ensures key(infos[i].shard).Some? && key(infos[i].shard).value in r
                && r[key(infos[i].shard).value] == infos[i].seqno
      {
        if i < n {
          assert init[i] == infos[i];
          assert forall j :: i < j < n ==> init[j] == infos[j];
          assert infos[n].shard != infos[i].shard;
          assert key(infos[i].shard) != key(infos[n].shard);
        }
      }
    }
  }

  /** The map is built exactly when every shard value fits; then its keys are
      the ids of all listed shards, and each id holds the seqno of the last
      entry with that shard value. */
  lemma ShardMapSpec(infos: seq<ShardInfo>)
    ensures ShardMap(infos).Some? <==> forall i :: 0 <= i < |infos| ==> InSigned64(infos[i].shard)
    ensures ShardMap(infos).Some? ==>
              forall id :: id in ShardMap(infos).value <==>
                exists i :: 0 <= i < |infos| && ShardId(infos[i].shard) == Some(id)
    ensures ShardMap(infos).Some? ==>
              forall i :: 0 <= i < |infos| && (forall j :: i < j < |infos| ==> infos[j].shard != infos[i].shard)
                ==> ShardId(infos[i].shard).Some? && ShardId(infos[i].shard).value in ShardMap(infos).value
                    && ShardMap(infos).value[ShardId(infos[i].shard).value] == infos[i].seqno
  {
    KeyedMapDefined(infos, ShardId);
    if ShardMap(infos).Some? {
      KeyedMapKeys(infos, ShardId);
      forall a, b | ShardId(a).Some? && ShardId(a) == ShardId(b)
        ensures a == b
      {
        ShardIdInjective(a, b);
      }
      KeyedMapLastWins(infos, ShardId);
    }
  }

  /** The head/shard block of `probe_client` (metrics.py:171-181): the head
      seqno is recorded first, then the shard map is assigned only once it has
      been built completely. */
  function WithHead(s: ProviderStatus, lastMcSeqno: Option<int>, shardsInfo: Option<seq<ShardInfo>>): (r: ProviderStatus)
    ensures r.(lastBlockSeqnoRaw := s.lastBlockSeqnoRaw, shards := s.shards) == s
    ensures r.lastBlockSeqnoRaw == if lastMcSeqno.Some? then lastMcSeqno else s.lastBlockSeqnoRaw
    ensures r.shards == s.shards
            || (lastMcSeqno.Some? && shardsInfo.Some? && ShardMap(shardsInfo.value) == Some(r.shards))
    ensures lastMcSeqno.Some? && shardsInfo.Some? && ShardMap(shardsInfo.value).Some?
            ==> r.shards == ShardMap(shardsInfo.value).value
  {
    match lastMcSeqno
    case None => s
    case Some(v) =>
      var withSeqno := s.(lastBlockSeqnoRaw := Some(v));
      match shardsInfo
      case None => withSeqno
      case Some(infos) =>
        match ShardMap(infos)
        case None => withSeqno
        case Some(m) => withSeqno.(shards := m)
  }

  /** The archive block of `probe_client` (metrics.py:183-196): the label is
      stored, and the unknown flag raised only when the label is "(?)"; when
      the check raised, neither changes. */
  function WithArchive(s: ProviderStatus, archiveLabel: Option<string>): (r: ProviderStatus)
    ensures r.(archiveDepthLabel := s.archiveDepthLabel, archiveUnknown := s.archiveUnknown) == s
    ensures r.archiveDepthLabel == if archiveLabel.Some? then archiveLabel else s.archiveDepthLabel
    ensures r.archiveUnknown == (s.archiveUnknown || archiveLabel == Some(UnknownLabel))
  {
    match archiveLabel
    case None => s
    case Some(l) => if l == UnknownLabel then s.(archiveDepthLabel := Some(l), archiveUnknown := true)
                    else s.(archiveDepthLabel := Some(l))
  }

  /** `probe_client`: the record built from one node's replies. */
  function ProbeClient(index: int, host: string, port: int, replies: Replies): (r: ProviderStatus)
    ensures r.index == index && r.host == host && r.port == port
    ensures replies.connectMs.None? ==> r == NewStatus(index, host, port)
    ensures replies.connectMs.Some? ==>
              && r.connectMs == replies.connectMs
              && r.pingMs == replies.pingMs
              && r.timeValue == replies.timeValue
              && r.version == replies.version
              && r.requestMs == replies.requestMs
              && r.lastBlockSeqnoRaw == replies.lastMcSeqno
              && r.archiveDepthLabel == replies.archiveLabel
    ensures r.shards == map[]
            || (replies.connectMs.Some? && replies.lastMcSeqno.Some? && replies.shardsInfo.Some?
                && ShardMap(replies.shardsInfo.value) == Some(r.shards))
    ensures replies.connectMs.Some? && replies.lastMcSeqno.Some? && replies.shardsInfo.Some?
            && ShardMap(replies.shardsInfo.value).Some?
            ==> r.shards == ShardMap(replies.shardsInfo.value).value
    ensures r.archiveUnknown <==> r.archiveDepthLabel == Some(UnknownLabel)
    ensures !r.mcLag && !r.shardLag && !r.timeLag
    ensures r.timeLabel.None? && r.lastBlockSeqnoLabel.None?
  {
    var base := NewStatus(index, host, port);
    match replies.connectMs
    case None => base
    case Some(ms) =>
      var measured := base.(connectMs := Some(ms), pingMs := replies.pingMs, timeValue := replies.timeValue,
                             version := replies.version, requestMs := replies.requestMs);
      WithArchive(WithHead(measured, replies.lastMcSeqno, replies.shardsInfo), replies.archiveLabel)
  }

  /** A shard fetch that fails (or a shard that does not encode) after the head
      was read leaves the head recorded with an empty shard map. */
  lemma ShardFetchFailureKeepsHead(index: int, host: string, port: int, replies: Replies)
    requires replies.connectMs.Some? && replies.lastMcSeqno.Some?
    requires replies.shardsInfo.None? || ShardMap(replies.shardsInfo.value).None?
    ensures ProbeClient(index, host, port, replies).lastBlockSeqnoRaw == replies.lastMcSeqno
    ensures ProbeClient(index, host, port, replies).shards == map[]
  {
  }

  /** A configured node: its address and its client's replies. */
  datatype Node = Node(host: string, port: int, replies: Replies)

  /** `probe_all_clients`: one record per node, in configuration order, with no
      lag flag raised; `archive_unknown` is whatever the probe set. */
  function ProbeAll(nodes: seq<Node>): (r: seq<ProviderStatus>)
    ensures |r| == |nodes|
    ensures forall i :: 0 <= i < |nodes| ==>
              r[i].index == i && r[i].host == nodes[i].host && r[i].port == nodes[i].port
    ensures forall i :: 0 <= i < |nodes| ==> !r[i].mcLag && !r[i].shardLag && !r[i].timeLag
  {
    seq(|nodes|, i requires 0 <= i < |nodes| => ProbeClient(i, nodes[i].host, nodes[i].port, nodes[i].replies))
  }

  /** After the seqno annotation of freshly probed records, a record is flagged
      `mc_lag` exactly when its head is negative or another node reports a later
      head, and `shard_lag` exactly when that is not so but one of its shards is
      negative or behind another node's. */
  lemma FleetSeqnoFlags(nodes: seq<Node>, i: nat)
    requires i < |nodes|
    requires ProbeAll(nodes)[i].lastBlockSeqnoRaw.Some?
    ensures var ss := ProbeAll(nodes);
            var v := ss[i].lastBlockSeqnoRaw.value;
            && AnnotateSeqnoLags(ss)[i].mcLag == HeadBehindFleet(ss, v)
            && AnnotateSeqnoLags(ss)[i].shardLag == (!HeadBehindFleet(ss, v) && ShardBehindFleet(ss, ss[i].shards))
  {
    AnnotateSeqnoLagsSpec(ProbeAll(nodes), i);
  }

  /** After both annotation passes over freshly probed records, a record with a
      time is flagged `time_lag` exactly when another node reports a later
      time, provided some node reports a positive time at all. */
  lemma FleetTimeFlags(nodes: seq<Node>, i: nat)
    requires i < |nodes|
    requires ProbeAll(nodes)[i].timeValue.Some?
    requires SomePositiveTime(ProbeAll(nodes))
    ensures var ss := ProbeAll(nodes);
            Annotate(ss)[i].timeLag == TimeBehindFleet(ss, ss[i].timeValue.value)
  {
    AnnotateTimeFlag(ProbeAll(nodes), i);
  }

  /** `probe_client` with the archive check run against `lookup`; when
      `archiveRaises` the check is taken to have raised. The other replies come
      from `replies` (whose `archiveLabel` is ignored). */
  method ProbeClientWithArchive(index: int, host: string, port: int, replies: Replies,
                                lookup: int -> bool, now: int, useExact: bool, archiveRaises: bool)
    returns (s: ProviderStatus)
    ensures replies.connectMs.None? ==> s == NewStatus(index, host, port)
    ensures archiveRaises ==> s.archiveDepthLabel.None? && !s.archiveUnknown
    ensures replies.connectMs.Some? && !archiveRaises && !useExact ==>
              s.archiveDepthLabel == Some(QuickDepth(lookup, now))
    ensures replies.connectMs.Some? && !archiveRaises && useExact ==>
              forall k :: ThresholdWithin(lookup, now, k, MaxDays(now)) ==>
                s.archiveDepthLabel == Some(DepthLabel(Clamp(k, MaxDays(now))))
    ensures replies.connectMs.Some? && !archiveRaises && useExact ==>
              s.archiveDepthLabel.Some? && ParseDepthLabel(s.archiveDepthLabel.value).Some?
    ensures replies.connectMs.Some? && !archiveRaises ==>
              forall k :: ThresholdWithin(lookup, now, k, ProbedSpan(now, useExact)) ==>
                (s.archiveUnknown <==> if useExact then Clamp(k, MaxDays(now)) == 0 else k < Ladder[0].days)
  {
    var depth := CheckArchive(lookup, now, useExact);
    var outcome := if archiveRaises then None else Some(depth);
    s := ProbeClient(index, host, port, replies.(archiveLabel := outcome));
  }
}

=== FILE: shardhex.dfy ===
/** Shard identifiers as the prober writes them: a signed 64-bit shard value
    turned into 8 big-endian two's-complement bytes (`int.to_bytes(8, "big",
    signed=True)`) and then into 16 lower-case hex characters (`bytes.hex()`).
    A value outside the signed 64-bit range makes `to_bytes` raise
    `OverflowError`; that is the `None` result here. */
module ShardHex {

  import opened Wrappers

  type Byte = b: int | 0 <= b < 256

  const TwoTo63: int := 0x8000_0000_0000_0000
  const TwoTo64: int := 0x1_0000_0000_0000_0000

  /** Width of a shard identifier in bytes. */
  const ShardBytes: nat := 8

  predicate InSigned64(v: int) {
    -TwoTo63 <= v < TwoTo63
  }

  function Pow256(n: nat): (p: nat)
    ensures p >= 1
  {
    if n == 0 then 1 else 256 * Pow256(n - 1)
  }

  /** Two's-complement bit pattern of a signed 64-bit value, read as unsigned. */
  function ToUnsigned64(v: int): (u: nat)
    requires InSigned64(v)
    ensures u < TwoTo64
    ensures (v >= 0) == (u < TwoTo63)
  {
    if v < 0 then v + TwoTo64 else v
  }

  /** Reads a 64-bit pattern back as a signed value. */
  function ToSigned64(u: nat): int
    requires u < TwoTo64
  {
    if u >= TwoTo63 then u - TwoTo64 else u
  }

  /** The low `n` bytes of `u`, most significant first. */
  function BigEndian(u: nat, n: nat): (bs: seq<Byte>)
    ensures |bs| == n
  {
    if n == 0 then [] else BigEndian(u / 256, n - 1) + [u % 256]
  }

  function FromBigEndian(bs: seq<Byte>): (u: nat)
    ensures u < Pow256(|bs|)
    decreases |bs|
  {
    if |bs| == 0 then 0 else FromBigEndian(bs[..|bs| - 1]) * 256 + bs[|bs| - 1]
  }

  function HexDigit(d: nat): (c: char)
    requires d < 16
    ensures IsLowerHex(c)
  {
    if d < 10 then ('0' as int + d) as char else ('a' as int + d - 10) as char
  }

  predicate IsLowerHex(c: char) {
    '0' <= c <= '9' || 'a' <= c <= 'f'
  }

  function HexValue(c: char): Option<nat> {
    if '0' <= c <= '9' then Some(c as int - '0' as int)
    else if 'a' <= c <= 'f' then Some(c as int - 'a' as int + 10)
    else None
  }

  /** `bytes.hex()`: two lower-case hex digits per byte, high nibble first. */
  function HexOfBytes(bs: seq<Byte>): (s: string)
    ensures |s| == 2 * |bs|
    ensures forall i :: 0 <= i < |s| ==> IsLowerHex(s[i])
    decreases |bs|
  {
    if |bs| == 0 then "" else [HexDigit(bs[0] / 16), HexDigit(bs[0] % 16)] + HexOfBytes(bs[1..])
  }

  function BytesOfHex(s: string): Option<seq<Byte>>
    decreases |s|
  {
    if |s| == 0 then Some([])
    else if |s| == 1 then None
    else
      match (HexValue(s[0]), HexValue(s[1]), BytesOfHex(s[2..]))
      case (Some(hi), Some(lo), Some(rest)) =>
        if hi < 16 && lo < 16 then Some([hi * 16 + lo] + rest) else None
      case _ => None
  }

  /** The identifier string of a shard value (metrics.py, the shard loop of
      `probe_client`), or `None` where `to_bytes` would overflow. */
  function ShardId(shard: int): (r: Option<string>)
    ensures r.Some? <==> InSigned64(shard)
    ensures r.Some? ==> |r.value| == 2 * ShardBytes
                        && forall i :: 0 <= i < |r.value| ==> IsLowerHex(r.value[i])
  {
    if InSigned64(shard) then Some(HexOfBytes(BigEndian(ToUnsigned64(shard), ShardBytes))) else None
  }

  /** Inverse of `ShardId`: 16 hex digits read as a two's-complement 64-bit value. */
  function ParseShardId(s: string): Option<int> {
    if |s| != 2 * ShardBytes then None
    else
      match BytesOfHex(s)
      case None => None
      case Some(bs) =>
        Pow256Eight();
        if |bs| == ShardBytes then Some(ToSigned64(FromBigEndian(bs))) else None
  }

  // ---------------------------------------------------------------------------
  // Lemmas
  // ---------------------------------------------------------------------------

  lemma Pow256Eight()
    ensures Pow256(8) == TwoTo64
  {
    assert Pow256(2) == 0x1_0000;
    assert Pow256(4) == 0x1_0000_0000;
    assert Pow256(6) == 0x1_0000_0000_0000;
  }

  lemma {:induction false} BigEndianRoundTrip(u: nat, n: nat)
    requires u < Pow256(n)
    ensures FromBigEndian(BigEndian(u, n)) == u
  {
    if n > 0 {
      var bs := BigEndian(u, n);
      assert bs[..n - 1] == BigEndian(u / 256, n - 1);
      assert u / 256 < Pow256(n - 1) by {
        assert (u / 256) * 256 <= u;
      }
      BigEndianRoundTrip(u / 256, n - 1);
    }
  }

  lemma {:induction false} HexRoundTrip(bs: seq<Byte>)
    ensures BytesOfHex(HexOfBytes(bs)) == Some(bs)
    decreases |bs|
  {
    if |bs| > 0 {
      var s := HexOfBytes(bs);
      assert s[2..] == HexOfBytes(bs[1..]);
      HexRoundTrip(bs[1..]);
      assert HexValue(s[0]) == Some(bs[0] / 16);
      assert HexValue(s[1]) == Some(bs[0] % 16);
      assert [bs[0]] + bs[1..] == bs;
    }
  }

  /** Every shard value the prober can encode is decoded back exactly, so two
      distinct shards never share an identifier. */
  lemma ShardIdRoundTrip(shard: int)
    requires InSigned64(shard)
    ensures ParseShardId(ShardId(shard).value) == Some(shard)
  {
    var u := ToUnsigned64(shard);
    var bs := BigEndian(u, ShardBytes);
    Pow256Eight();
    BigEndianRoundTrip(u, ShardBytes);
    HexRoundTrip(bs);
  }

  lemma ShardIdInjective(a: int, b: int)
    requires InSigned64(a) && InSigned64(b)
    ensures ShardId(a) == ShardId(b) ==> a == b
  {
    ShardIdRoundTrip(a);
    ShardIdRoundTrip(b);
  }

  /** The two's-complement bytes of `-(2**63)`: a single top bit. */
  lemma MasterchainBytes()
    ensures BigEndian(ToUnsigned64(-TwoTo63), ShardBytes) == [0x80, 0, 0, 0, 0, 0, 0, 0]
  {
    assert ToUnsigned64(-TwoTo63) == 0x80 * 0x1_0000_0000_0000_00;
    assert BigEndian(0x80, 1) == [0x80];
    assert BigEndian(0x8000, 2) == [0x80, 0];
    assert BigEndian(0x80_0000, 3) == [0x80, 0, 0];
    assert BigEndian(0x8000_0000, 4) == [0x80, 0, 0, 0];
    assert BigEndian(0x80_0000_0000, 5) == [0x80, 0, 0, 0, 0];
    assert BigEndian(0x8000_0000_0000, 6) == [0x80, 0, 0, 0, 0, 0];
    assert BigEndian(0x80_0000_0000_0000, 7) == [0x80, 0, 0, 0, 0, 0, 0];
  }

  /** Zero bytes print as pairs of '0'. */
  lemma {:induction false} ZeroBytesHex(n: nat)
    ensures HexOfBytes(seq(n, _ => 0)) == seq(2 * n, _ => '0')
  {
    if n > 0 {
      var bs: seq<Byte> := seq(n, _ => 0);
      assert bs[1..] == seq(n - 1, _ => 0);
      ZeroBytesHex(n - 1);
      assert HexDigit(0) == '0';
      assert HexOfBytes(bs) == ['0', '0'] + seq(2 * (n - 1), _ => '0');
    }
  }

  lemma MasterchainHex()
    ensures HexOfBytes([0x80, 0, 0, 0, 0, 0, 0, 0]) == "8000000000000000"
  {
    var bs: seq<Byte> := [0x80, 0, 0, 0, 0, 0, 0, 0];
    var zeros: seq<Byte> := seq(7, _ => 0);
    assert bs[1..] == zeros;
    ZeroBytesHex(7);
    assert HexDigit(8) == '8' && HexDigit(0) == '0';
    assert HexOfBytes(bs) == "80" + seq(14, _ => '0');
  }

  /** The masterchain shard `-(2**63)` used by the archive lookups is `8000000000000000`. */
  lemma MasterchainShardId()
    ensures ShardId(-TwoTo63) == Some("8000000000000000")
  {
    MasterchainBytes();
    MasterchainHex();
  }
}

=== FILE: status.dfy ===
/** status.py: the per-node status record, the fleet consistency annotators
    (`annotate_seqno_lags`, `annotate_time_lags`), the legend and the table
    rows of `print_status`. The annotators mutate the list in place in the
    source; here they return the annotated list. */
module Status {

  import opened Wrappers
  import opened Arith
  import opened Decimal
  import opened Utils

  /** `ProviderStatus`. `pingMs` is whole milliseconds (the source keeps a float). */
  datatype ProviderStatus = ProviderStatus(
    index: int,
    host: string,
    port: int,
    connectMs: Option<int>,
    requestMs: Option<int>,
    pingMs: Option<int>,
    version: Option<string>,
    timeValue: Option<int>,
    timeLabel: Option<string>,
    lastBlockSeqnoRaw: Option<int>,
    lastBlockSeqnoLabel: Option<string>,
    shards: map<string, int>,
    archiveDepthLabel: Option<string>,
    mcLag: bool,
    shardLag: bool,
    timeLag: bool,
    archiveUnknown: bool)

  /** A record with only the address set and every other field at its default. */
  function NewStatus(index: int, host: string, port: int): ProviderStatus {
    ProviderStatus(index, host, port, None, None, None, None, None, None, None, None,
                   map[], None, false, false, false, false)
  }

  const HeadLagMark: string := "(!)"
  const ShardLagMark: string := "(!!)"
  const TimeLagMark: string := "(*)"
  const UnknownArchiveMark: string := "(?)"

  /** A number followed by a space and a lag mark, as in `"90 (!)"`. */
  function Marked(v: int, mark: string): string {
    IntToString(v) + " " + mark
  }

  // ---------------------------------------------------------------------------
  // Fleet maxima
  // ---------------------------------------------------------------------------

  /** `m = 0; for x present: m = max(m, x)`. */
  function MaxPresent(xs: seq<Option<int>>): (m: int)
    ensures m >= 0
    ensures forall i :: 0 <= i < |xs| && xs[i].Some? ==> xs[i].value <= m
    ensures m == 0 || exists i :: 0 <= i < |xs| && xs[i] == Some(m)
    decreases |xs|
  {
    if |xs| == 0 then 0
    else
      var m := MaxPresent(xs[..|xs| - 1]);
      match xs[|xs| - 1]
      case None => m
      case Some(v) => Max(m, v)
  }

  function Seqnos(ss: seq<ProviderStatus>): (r: seq<Option<int>>)
    ensures |r| == |ss| && forall i :: 0 <= i < |ss| ==> r[i] == ss[i].lastBlockSeqnoRaw
  {
    seq(|ss|, i requires 0 <= i < |ss| => ss[i].lastBlockSeqnoRaw)
  }

  function Times(ss: seq<ProviderStatus>): (r: seq<Option<int>>)
    ensures |r| == |ss| && forall i :: 0 <= i < |ss| ==> r[i] == ss[i].timeValue
  {
    seq(|ss|, i requires 0 <= i < |ss| => ss[i].timeValue)
  }

  function ShardMaps(ss: seq<ProviderStatus>): (r: seq<map<string, int>>)
    ensures |r| == |ss| && forall i :: 0 <= i < |ss| ==> r[i] == ss[i].shards
  {
    seq(|ss|, i requires 0 <= i < |ss| => ss[i].shards)
  }

  /** `max_last_block_seqno`: the fleet head, never below 0. */
  function MaxSeqno(ss: seq<ProviderStatus>): int { MaxPresent(Seqnos(ss)) }

  /** `max_time`, never below 0. */
  function MaxTime(ss: seq<ProviderStatus>): int { MaxPresent(Times(ss)) }

  function Get0(m: map<string, int>, id: string): int {
    if id in m then m[id] else 0
  }

  /** One record's pass of the `max_shards` loop. */
  function MergeShards(acc: map<string, int>, shards: map<string, int>): (r: map<string, int>)
    ensures r.Keys == acc.Keys + shards.Keys
    ensures forall id :: id in shards ==> r[id] == Max(Get0(acc, id), shards[id])
    ensures forall id :: id in acc && id !in shards ==> r[id] == acc[id]
  {
    map id | id in acc.Keys + shards.Keys :: if id in shards then Max(Get0(acc, id), shards[id]) else acc[id]
  }

  /** `max_shards`: per shard id, the maximum over every record reporting it, floored at 0. */
  function MaxShardsOf(maps: seq<map<string, int>>): map<string, int>
    decreases |maps|
  {
    if |maps| == 0 then map[]
    else MergeShards(MaxShardsOf(maps[..|maps| - 1]), maps[|maps| - 1])
  }

  /** `max_shards` holds exactly the shard ids some record reports. */
  lemma {:induction false} MaxShardsKeys(maps: seq<map<string, int>>)
    ensures forall id :: id in MaxShardsOf(maps) <==> exists k :: 0 <= k < |maps| && id in maps[k]
    decreases |maps|
  {
    if |maps| > 0 {
      var n := |maps| - 1;
      var init := maps[..n];
      MaxShardsKeys(init);
      forall id
        ensures id in MaxShardsOf(maps) <==> exists k :: 0 <= k < |maps| && id in maps[k]
      {
        if id in MaxShardsOf(init) {
          var k :| 0 <= k < |init| && id in init[k];
          assert id in maps[k];
        }
        if exists k :: 0 <= k < |maps| && id in maps[k] {
          var k :| 0 <= k < |maps| && id in maps[k];
          if k < n {
            assert id in init[k];
          }
        }
      }
    }
  }

  /** No record reports a shard above its `max_shards` entry. */
  lemma {:induction false} MaxShardsUpper(maps: seq<map<string, int>>)
    ensures forall k, id :: 0 <= k < |maps| && id in maps[k] ==>
              id in MaxShardsOf(maps) && maps[k][id] <= MaxShardsOf(maps)[id]
    decreases |maps|
  {
    if |maps| > 0 {
      var n := |maps| - 1;
      var init := maps[..n];
      MaxShardsUpper(init);
      forall k, id | 0 <= k < |maps| && id in maps[k]
        ensures id in MaxShardsOf(maps) && maps[k][id] <= MaxShardsOf(maps)[id]
      {
        if k < n {
          assert id in init[k];
        }
      }
    }
  }

  /** Every `max_shards` entry is 0 or a value some record reports, never negative. */
  lemma {:induction false} MaxShardsAttained(maps: seq<map<string, int>>)
    ensures forall id :: id in MaxShardsOf(maps) ==>
              MaxShardsOf(maps)[id] >= 0
              && (MaxShardsOf(maps)[id] == 0
                  || exists k :: 0 <= k < |maps| && id in maps[k] && maps[k][id] == MaxShardsOf(maps)[id])
    decreases |maps|
  {
    if |maps| > 0 {
      var n := |maps| - 1;
      var init := maps[..n];
      MaxShardsAttained(init);
      var prev := MaxShardsOf(init);
      var r := MaxShardsOf(maps);
      forall id | id in r
        ensures r[id] >= 0
        ensures r[id] == 0 || exists k :: 0 <= k < |maps| && id in maps[k] && maps[k][id] == r[id]
      {
        if r[id] != 0 && (id !in maps[n] || r[id] != maps[n][id]) {
          assert r[id] == prev[id];
          var k :| 0 <= k < |init| && id in init[k] && init[k][id] == prev[id];
          assert maps[k] == init[k];
        }
      }
    }
  }

  function MaxShards(ss: seq<ProviderStatus>): map<string, int> { MaxShardsOf(ShardMaps(ss)) }

  // ---------------------------------------------------------------------------
  // annotate_seqno_lags
  // ---------------------------------------------------------------------------

  /** Some shard of this record is strictly behind the fleet maximum for that shard. */
  predicate HasLaggingShard(shards: map<string, int>, maxShards: map<string, int>) {
    exists id :: id in shards && id in maxShards && shards[id] < maxShards[id]
  }

  /** The third loop of `annotate_seqno_lags`, for one record. */
  function AnnotateSeqno(s: ProviderStatus, maxSeqno: int, maxShards: map<string, int>): ProviderStatus {
    match s.lastBlockSeqnoRaw
    case None => s
    case Some(v) =>
      if v < maxSeqno then
        s.(mcLag := true, lastBlockSeqnoLabel := Some(Marked(v, HeadLagMark)))
      else if HasLaggingShard(s.shards, maxShards) then
        s.(shardLag := true, lastBlockSeqnoLabel := Some(Marked(v, ShardLagMark)))
      else
        s.(lastBlockSeqnoLabel := Some(IntToString(v)))
  }

  /** `b` is `a` with at most the seqno flags and label changed. */
  predicate SeqnoFrame(a: ProviderStatus, b: ProviderStatus) {
    b == a.(mcLag := b.mcLag, shardLag := b.shardLag, lastBlockSeqnoLabel := b.lastBlockSeqnoLabel)
  }

  /** `b` is `a` with at most the time flag and label changed. */
  predicate TimeFrame(a: ProviderStatus, b: ProviderStatus) {
    b == a.(timeLag := b.timeLag, timeLabel := b.timeLabel)
  }

  function AnnotateSeqnoLags(ss: seq<ProviderStatus>): (r: seq<ProviderStatus>)
    ensures |r| == |ss|
  {
    var maxSeqno := MaxSeqno(ss);
    var maxShards := MaxShards(ss);
    seq(|ss|, i requires 0 <= i < |ss| => AnnotateSeqno(ss[i], maxSeqno, maxShards))
  }

  lemma AnnotateSeqnoFrame(s: ProviderStatus, maxSeqno: int, maxShards: map<string, int>)
    ensures SeqnoFrame(s, AnnotateSeqno(s, maxSeqno, maxShards))
    ensures s.lastBlockSeqnoRaw.None? ==> AnnotateSeqno(s, maxSeqno, maxShards) == s
    ensures s.mcLag ==> AnnotateSeqno(s, maxSeqno, maxShards).mcLag
    ensures s.shardLag ==> AnnotateSeqno(s, maxSeqno, maxShards).shardLag
  {
    var r := AnnotateSeqno(s, maxSeqno, maxShards);
    if s.lastBlockSeqnoRaw.Some? {
      var v := s.lastBlockSeqnoRaw.value;
      if v < maxSeqno {
        assert r == s.(mcLag := true, lastBlockSeqnoLabel := Some(Marked(v, HeadLagMark)));
      } else if HasLaggingShard(s.shards, maxShards) {
        assert r == s.(shardLag := true, lastBlockSeqnoLabel := Some(Marked(v, ShardLagMark)));
      } else {
        assert r == s.(lastBlockSeqnoLabel := Some(IntToString(v)));
      }
    }
  }

  /** Nothing but `mc_lag`, `shard_lag` and the seqno label changes, records
      without a head are untouched, and flags are never cleared. */
  lemma AnnotateSeqnoLagsFrame(ss: seq<ProviderStatus>)
    ensures forall i :: 0 <= i < |ss| ==> SeqnoFrame(ss[i], AnnotateSeqnoLags(ss)[i])
    ensures forall i :: 0 <= i < |ss| && ss[i].lastBlockSeqnoRaw.None? ==> AnnotateSeqnoLags(ss)[i] == ss[i]
    ensures forall i :: 0 <= i < |ss| ==>
              (ss[i].mcLag ==> AnnotateSeqnoLags(ss)[i].mcLag) && (ss[i].shardLag ==> AnnotateSeqnoLags(ss)[i].shardLag)
  {
    forall i | 0 <= i < |ss|
      ensures SeqnoFrame(ss[i], AnnotateSeqnoLags(ss)[i])
      ensures ss[i].lastBlockSeqnoRaw.None? ==> AnnotateSeqnoLags(ss)[i] == ss[i]
      ensures (ss[i].mcLag ==> AnnotateSeqnoLags(ss)[i].mcLag) && (ss[i].shardLag ==> AnnotateSeqnoLags(ss)[i].shardLag)
    {
      AnnotateSeqnoFrame(ss[i], MaxSeqno(ss), MaxShards(ss));
    }
  }

  /** Reference definition of a stale head: below 0 (the fleet maximum starts
      there) or below some other record's head. */
  ghost predicate HeadBehindFleet(ss: seq<ProviderStatus>, v: int) {
    v < 0 || exists j :: 0 <= j < |ss| && ss[j].lastBlockSeqnoRaw.Some? && v < ss[j].lastBlockSeqnoRaw.value
  }

  /** Reference definition of a stale shard: some shard of `shards` is below 0 or
      below what another record reports for the same shard. */
  ghost predicate ShardBehindFleet(ss: seq<ProviderStatus>, shards: map<string, int>) {
    exists id :: id in shards &&
      (shards[id] < 0 || exists j :: 0 <= j < |ss| && id in ss[j].shards && shards[id] < ss[j].shards[id])
  }

  lemma MaxSeqnoSpec(ss: seq<ProviderStatus>, v: int)
    ensures v < MaxSeqno(ss) <==> HeadBehindFleet(ss, v)
  {
    var m := MaxSeqno(ss);
    if v < m && v >= 0 {
      var j :| 0 <= j < |ss| && Seqnos(ss)[j] == Some(m);
    }
    if HeadBehindFleet(ss, v) && v >= 0 {
      var j :| 0 <= j < |ss| && ss[j].lastBlockSeqnoRaw.Some? && v < ss[j].lastBlockSeqnoRaw.value;
      assert Seqnos(ss)[j] == ss[j].lastBlockSeqnoRaw;
    }
  }

  lemma MaxShardsSpec(ss: seq<ProviderStatus>, i: nat)
    requires i < |ss|
    ensures HasLaggingShard(ss[i].shards, MaxShards(ss)) <==> ShardBehindFleet(ss, ss[i].shards)
  {
    var shards := ss[i].shards;
    var ms := MaxShards(ss);
    var maps := ShardMaps(ss);
    MaxShardsUpper(maps);
    MaxShardsAttained(maps);
    if HasLaggingShard(shards, ms) {
      var id :| id in shards && id in ms && shards[id] < ms[id];
      if shards[id] >= 0 {
        var k :| 0 <= k < |maps| && id in maps[k] && maps[k][id] == ms[id];
        assert id in ss[k].shards && shards[id] < ss[k].shards[id];
      }
    }
    if ShardBehindFleet(ss, shards) {
      var id :| id in shards &&
        (shards[id] < 0 || exists j :: 0 <= j < |ss| && id in ss[j].shards && shards[id] < ss[j].shards[id]);
      assert id in maps[i];
      if shards[id] >= 0 {
        var j :| 0 <= j < |ss| && id in ss[j].shards && shards[id] < ss[j].shards[id];
        assert id in maps[j];
      }
    }
  }

  /** The annotation, stated against the fleet: a record with a head gets "(!)"
      exactly when its head is negative or some record is ahead of it, otherwise
      "(!!)" exactly when one of its shards is negative or behind another
      record's, otherwise the bare number; flags
      are only ever raised, and nothing but the flags and label changes. */
  lemma AnnotateSeqnoLagsSpec(ss: seq<ProviderStatus>, i: nat)
    requires i < |ss|
    requires ss[i].lastBlockSeqnoRaw.Some?
    ensures var v := ss[i].lastBlockSeqnoRaw.value;
            var r := AnnotateSeqnoLags(ss)[i];
            var head := HeadBehindFleet(ss, v);
            var shard := !head && ShardBehindFleet(ss, ss[i].shards);
            && r.mcLag == (ss[i].mcLag || head)
            && r.shardLag == (ss[i].shardLag || shard)
            && r.lastBlockSeqnoLabel == Some(
                 if head then Marked(v, HeadLagMark) else if shard then Marked(v, ShardLagMark) else IntToString(v))
  {
    var v := ss[i].lastBlockSeqnoRaw.value;
    MaxSeqnoSpec(ss, v);
    MaxShardsSpec(ss, i);
    var s := ss[i];
    var r := AnnotateSeqnoLags(ss)[i];
    assert r == AnnotateSeqno(s, MaxSeqno(ss), MaxShards(ss));
    if v < MaxSeqno(ss) {
      assert r == s.(mcLag := true, lastBlockSeqnoLabel := Some(Marked(v, HeadLagMark)));
    } else if HasLaggingShard(s.shards, MaxShards(ss)) {
      assert r == s.(shardLag := true, lastBlockSeqnoLabel := Some(Marked(v, ShardLagMark)));
    } else {
      assert r == s.(lastBlockSeqnoLabel := Some(IntToString(v)));
    }
  }

  lemma AnnotateSeqnoTwice(s: ProviderStatus, maxSeqno: int, maxShards: map<string, int>)
    ensures AnnotateSeqno(AnnotateSeqno(s, maxSeqno, maxShards), maxSeqno, maxShards)
            == AnnotateSeqno(s, maxSeqno, maxShards)
  {
    if s.lastBlockSeqnoRaw.Some? {
      var v := s.lastBlockSeqnoRaw.value;
      if v < maxSeqno {
        AnnotateSeqnoTwiceHeadLag(s, maxSeqno, maxShards);
      } else if HasLaggingShard(s.shards, maxShards) {
        AnnotateSeqnoTwiceShardLag(s, maxSeqno, maxShards);
      } else {
        AnnotateSeqnoTwiceCurrent(s, maxSeqno, maxShards);
      }
    }
  }

  lemma AnnotateSeqnoTwiceHeadLag(s: ProviderStatus, maxSeqno: int, maxShards: map<string, int>)
    requires s.lastBlockSeqnoRaw.Some? && s.lastBlockSeqnoRaw.value < maxSeqno
    ensures AnnotateSeqno(AnnotateSeqno(s, maxSeqno, maxShards), maxSeqno, maxShards)
            == AnnotateSeqno(s, maxSeqno, maxShards)
  {
    var r := AnnotateSeqno(s, maxSeqno, maxShards);
    var lbl := Some(Marked(s.lastBlockSeqnoRaw.value, HeadLagMark));
    assert r == s.(mcLag := true, lastBlockSeqnoLabel := lbl);
    assert AnnotateSeqno(r, maxSeqno, maxShards) == r.(mcLag := true, lastBlockSeqnoLabel := lbl);
  }

  lemma AnnotateSeqnoTwiceShardLag(s: ProviderStatus, maxSeqno: int, maxShards: map<string, int>)
    requires s.lastBlockSeqnoRaw.Some? && s.lastBlockSeqnoRaw.value >= maxSeqno
    requires HasLaggingShard(s.shards, maxShards)
    ensures AnnotateSeqno(AnnotateSeqno(s, maxSeqno, maxShards), maxSeqno, maxShards)
            == AnnotateSeqno(s, maxSeqno, maxShards)
  {
    var r := AnnotateSeqno(s, maxSeqno, maxShards);
    var lbl := Some(Marked(s.lastBlockSeqnoRaw.value, ShardLagMark));
    assert r == s.(shardLag := true, lastBlockSeqnoLabel := lbl);
    assert AnnotateSeqno(r, maxSeqno, maxShards) == r.(shardLag := true, lastBlockSeqnoLabel := lbl);
  }

  lemma AnnotateSeqnoTwiceCurrent(s: ProviderStatus, maxSeqno: int, maxShards: map<string, int>)
    requires s.lastBlockSeqnoRaw.Some? && s.lastBlockSeqnoRaw.value >= maxSeqno
    requires !HasLaggingShard(s.shards, maxShards)
    ensures AnnotateSeqno(AnnotateSeqno(s, maxSeqno, maxShards), maxSeqno, maxShards)
            == AnnotateSeqno(s, maxSeqno, maxShards)
  {
    var r := AnnotateSeqno(s, maxSeqno, maxShards);
    var lbl := Some(IntToString(s.lastBlockSeqnoRaw.value));
    assert r == s.(lastBlockSeqnoLabel := lbl);
    assert AnnotateSeqno(r, maxSeqno, maxShards) == r.(lastBlockSeqnoLabel := lbl);
  }

  /** The seqno pass reads only heads and shard maps, and changes neither, so a
      second pass sees the same fleet maxima. */
  lemma AnnotateSeqnoLagsKeepsMaxima(ss: seq<ProviderStatus>)
    ensures MaxSeqno(AnnotateSeqnoLags(ss)) == MaxSeqno(ss)
    ensures MaxShards(AnnotateSeqnoLags(ss)) == MaxShards(ss)
  {
    var once := AnnotateSeqnoLags(ss);
    AnnotateSeqnoLagsFrame(ss);
    assert forall i :: 0 <= i < |ss| ==>
      once[i].lastBlockSeqnoRaw == ss[i].lastBlockSeqnoRaw && once[i].shards == ss[i].shards;
    assert Seqnos(once) == Seqnos(ss);
    assert ShardMaps(once) == ShardMaps(ss);
  }

  /** Running the seqno annotation twice gives the same list as running it once:
      the maxima only read heads and shards, which it never changes, the label is
      rebuilt from the raw number, and flags only go to true. */
  lemma AnnotateSeqnoLagsIdempotent(ss: seq<ProviderStatus>)
    ensures AnnotateSeqnoLags(AnnotateSeqnoLags(ss)) == AnnotateSeqnoLags(ss)
  {
    var once := AnnotateSeqnoLags(ss);
    AnnotateSeqnoLagsKeepsMaxima(ss);
    var maxSeqno, maxShards := MaxSeqno(ss), MaxShards(ss);
    var twice := AnnotateSeqnoLags(once);
    forall i | 0 <= i < |ss|
      ensures twice[i] == once[i]
    {
      assert once[i] == AnnotateSeqno(ss[i], maxSeqno, maxShards);
      assert twice[i] == AnnotateSeqno(once[i], maxSeqno, maxShards);
      AnnotateSeqnoTwice(ss[i], maxSeqno, maxShards);
    }
  }

  // ---------------------------------------------------------------------------
  // annotate_time_lags
  // ---------------------------------------------------------------------------

  function AnnotateTime(s: ProviderStatus, maxTime: int): ProviderStatus {
    match s.timeValue
    case None => s
    case Some(v) =>
      if v < maxTime then s.(timeLag := true, timeLabel := Some(Marked(v, TimeLagMark)))
      else s.(timeLabel := Some(IntToString(v)))
  }

  function AnnotateTimeLags(ss: seq<ProviderStatus>): (r: seq<ProviderStatus>)
    ensures |r| == |ss|
    ensures forall i :: 0 <= i < |ss| ==> TimeFrame(ss[i], r[i])
    ensures forall i :: 0 <= i < |ss| && ss[i].timeValue.None? ==> r[i] == ss[i]
    ensures forall i :: 0 <= i < |ss| && ss[i].timeLag ==> r[i].timeLag
  {
    var maxTime := MaxTime(ss);
    if maxTime <= 0 then ss
    else seq(|ss|, i requires 0 <= i < |ss| => AnnotateTime(ss[i], maxTime))
  }

  /** Reference definition: some record reports a later time than `v`. */
  ghost predicate TimeBehindFleet(ss: seq<ProviderStatus>, v: int) {
    exists j :: 0 <= j < |ss| && ss[j].timeValue.Some? && v < ss[j].timeValue.value
  }

  /** Reference definition: some record reports a positive time. */
  ghost predicate SomePositiveTime(ss: seq<ProviderStatus>) {
    exists j :: 0 <= j < |ss| && ss[j].timeValue.Some? && ss[j].timeValue.value > 0
  }

  lemma MaxTimeSpec(ss: seq<ProviderStatus>)
    ensures MaxTime(ss) > 0 <==> SomePositiveTime(ss)
    ensures SomePositiveTime(ss) ==>
              forall v :: v < MaxTime(ss) <==> TimeBehindFleet(ss, v)
  {
    var m := MaxTime(ss);
    var times := Times(ss);
    if m > 0 {
      var k :| 0 <= k < |times| && times[k] == Some(m);
      assert ss[k].timeValue == Some(m);
      forall v | TimeBehindFleet(ss, v)
        ensures v < m
      {
        var l :| 0 <= l < |ss| && ss[l].timeValue.Some? && v < ss[l].timeValue.value;
        assert times[l] == ss[l].timeValue;
      }
    }
    if SomePositiveTime(ss) {
      var j :| 0 <= j < |ss| && ss[j].timeValue.Some? && ss[j].timeValue.value > 0;
      assert times[j] == ss[j].timeValue;
    }
  }

  /** With no positive time anywhere, `annotate_time_lags` changes nothing. */
  lemma AnnotateTimeLagsNoop(ss: seq<ProviderStatus>)
    ensures !SomePositiveTime(ss) ==> AnnotateTimeLags(ss) == ss
  {
    MaxTimeSpec(ss);
  }

  /** Otherwise a record with a time gets "(*)" and the flag exactly when some
      record reports a later time, and the bare number when none does. */
  lemma AnnotateTimeLagsSpec(ss: seq<ProviderStatus>, i: nat)
    requires i < |ss| && ss[i].timeValue.Some?
    requires SomePositiveTime(ss)
    ensures var v := ss[i].timeValue.value;
            var r := AnnotateTimeLags(ss)[i];
            && r.timeLag == (ss[i].timeLag || TimeBehindFleet(ss, v))
            && r.timeLabel == Some(if TimeBehindFleet(ss, v) then Marked(v, TimeLagMark) else IntToString(v))
  {
    MaxTimeSpec(ss);
    var v := ss[i].timeValue.value;
    var s := ss[i];
    var r := AnnotateTimeLags(ss)[i];
    assert r == AnnotateTime(s, MaxTime(ss));
    if v < MaxTime(ss) {
      assert r == s.(timeLag := true, timeLabel := Some(Marked(v, TimeLagMark)));
    } else {
      assert r == s.(timeLabel := Some(IntToString(v)));
    }
  }

  /** Running the time annotation twice gives the same list as running it once. */
  lemma AnnotateTimeLagsIdempotent(ss: seq<ProviderStatus>)
    ensures AnnotateTimeLags(AnnotateTimeLags(ss)) == AnnotateTimeLags(ss)
  {
    var once := AnnotateTimeLags(ss);
    assert Times(once) == Times(ss);
  }

  // ---------------------------------------------------------------------------
  // build_legend
  // ---------------------------------------------------------------------------

  /** A legend entry: the mark, what it means, and its colour. */
  datatype LegendRow = LegendRow(mark: string, description: string, fg: string)

  /** The fixed order legend marks appear in. */
  const MarkOrder: seq<string> := [TimeLagMark, UnknownArchiveMark, HeadLagMark, ShardLagMark]

  function MarkRank(mark: string): nat {
    if mark == TimeLagMark then 0
    else if mark == UnknownArchiveMark then 1
    else if mark == HeadLagMark then 2
    else if mark == ShardLagMark then 3
    else 4
  }

  predicate AnyTimeLag(ss: seq<ProviderStatus>) { exists i :: 0 <= i < |ss| && ss[i].timeLag }
  predicate AnyArchiveUnknown(ss: seq<ProviderStatus>) { exists i :: 0 <= i < |ss| && ss[i].archiveUnknown }
  predicate AnyMcLag(ss: seq<ProviderStatus>) { exists i :: 0 <= i < |ss| && ss[i].mcLag }
  predicate AnyShardLag(ss: seq<ProviderStatus>) { exists i :: 0 <= i < |ss| && ss[i].shardLag }

  predicate HasMark(rows: seq<LegendRow>, mark: string) {
    exists i :: 0 <= i < |rows| && rows[i].mark == mark
  }

  function RowIf(present: bool, row: LegendRow): seq<LegendRow> {
    if present then [row] else []
  }

  /** The four legend rows of `build_legend`, in the order it appends them. */
  const TimeLagRow := LegendRow(TimeLagMark, "LS time is behind maximum time across LS", ForeYellow)
  const UnknownArchiveRow := LegendRow(UnknownArchiveMark, "Failed to determine archive depth for this LS", ForeYellow)
  const HeadLagRow := LegendRow(HeadLagMark, "Masterchain seqno is behind maximum across LS", ForeRed)
  const ShardLagRow := LegendRow(ShardLagMark, "One or more shardchain seqno is behind maximum for that shard", ForeRed)

  /** `build_legend`: one row per kind of flag present. */
  function BuildLegend(ss: seq<ProviderStatus>): seq<LegendRow> {
    LegendOf(AnyTimeLag(ss), AnyArchiveUnknown(ss), AnyMcLag(ss), AnyShardLag(ss))
  }

  /** The legend for the four fleet-wide flags, appended in `build_legend`'s order. */
  function LegendOf(timeLag: bool, archiveUnknown: bool, mcLag: bool, shardLag: bool): seq<LegendRow> {
    RowIf(timeLag, TimeLagRow)
    + RowIf(archiveUnknown, UnknownArchiveRow)
    + RowIf(mcLag, HeadLagRow)
    + RowIf(shardLag, ShardLagRow)
  }

  lemma HasMarkConcat(a: seq<LegendRow>, b: seq<LegendRow>, mark: string)
    ensures HasMark(a + b, mark) <==> HasMark(a, mark) || HasMark(b, mark)
  {
    if HasMark(a + b, mark) {
      var i :| 0 <= i < |a + b| && (a + b)[i].mark == mark;
      if i >= |a| {
        assert b[i - |a|].mark == mark;
      }
    }
    if HasMark(a, mark) {
      var i :| 0 <= i < |a| && a[i].mark == mark;
      assert (a + b)[i] == a[i];
    }
    if HasMark(b, mark) {
      var i :| 0 <= i < |b| && b[i].mark == mark;
      assert (a + b)[|a| + i] == b[i];
    }
  }

  lemma HasMarkRowIf(present: bool, row: LegendRow, mark: string)
    ensures HasMark(RowIf(present, row), mark) <==> present && row.mark == mark
  {
    if present && row.mark == mark {
      assert RowIf(present, row)[0].mark == mark;
    }
  }

  /** Each mark is in the legend exactly when its flag is given. */
  lemma LegendOfMarks(timeLag: bool, archiveUnknown: bool, mcLag: bool, shardLag: bool)
    ensures var rows := LegendOf(timeLag, archiveUnknown, mcLag, shardLag);
            && (HasMark(rows, TimeLagMark) <==> timeLag)
            && (HasMark(rows, UnknownArchiveMark) <==> archiveUnknown)
            && (HasMark(rows, HeadLagMark) <==> mcLag)
            && (HasMark(rows, ShardLagMark) <==> shardLag)
  {
    var a := RowIf(timeLag, TimeLagRow);
    var b := RowIf(archiveUnknown, UnknownArchiveRow);
    var c := RowIf(mcLag, HeadLagRow);
    var d := RowIf(shardLag, ShardLagRow);
    forall mark | mark in MarkOrder
      ensures HasMark(a + b + c + d, mark) <==>
                HasMark(a, mark) || HasMark(b, mark) || HasMark(c, mark) || HasMark(d, mark)
    {
      HasMarkConcat(a + b + c, d, mark);
      HasMarkConcat(a + b, c, mark);
      HasMarkConcat(a, b, mark);
    }
    forall mark | mark in MarkOrder
      ensures HasMark(a, mark) <==> timeLag && mark == TimeLagMark
      ensures HasMark(b, mark) <==> archiveUnknown && mark == UnknownArchiveMark
      ensures HasMark(c, mark) <==> mcLag && mark == HeadLagMark
      ensures HasMark(d, mark) <==> shardLag && mark == ShardLagMark
    {
      HasMarkRowIf(timeLag, TimeLagRow, mark);
      HasMarkRowIf(archiveUnknown, UnknownArchiveRow, mark);
      HasMarkRowIf(mcLag, HeadLagRow, mark);
      HasMarkRowIf(shardLag, ShardLagRow, mark);
    }
    assert TimeLagMark in MarkOrder && UnknownArchiveMark in MarkOrder;
    assert HeadLagMark in MarkOrder && ShardLagMark in MarkOrder;
  }

  /** The legend lists each mark exactly when some record carries the matching
      flag. */
  lemma BuildLegendMarks(ss: seq<ProviderStatus>)
    ensures HasMark(BuildLegend(ss), TimeLagMark) <==> AnyTimeLag(ss)
    ensures HasMark(BuildLegend(ss), UnknownArchiveMark) <==> AnyArchiveUnknown(ss)
    ensures HasMark(BuildLegend(ss), HeadLagMark) <==> AnyMcLag(ss)
    ensures HasMark(BuildLegend(ss), ShardLagMark) <==> AnyShardLag(ss)
  {
    LegendOfMarks(AnyTimeLag(ss), AnyArchiveUnknown(ss), AnyMcLag(ss), AnyShardLag(ss));
  }

  predicate Ascending(rows: seq<LegendRow>) {
    forall i, j :: 0 <= i < j < |rows| ==> MarkRank(rows[i].mark) < MarkRank(rows[j].mark)
  }

  predicate RanksIn(rows: seq<LegendRow>, lo: nat, hi: nat) {
    forall i :: 0 <= i < |rows| ==> lo <= MarkRank(rows[i].mark) < hi
  }

  lemma AscendingConcat(x: seq<LegendRow>, y: seq<LegendRow>, lo: nat, mid: nat, hi: nat)
    requires lo <= mid <= hi
    requires Ascending(x) && Ascending(y)
    requires RanksIn(x, lo, mid) && RanksIn(y, mid, hi)
    ensures Ascending(x + y) && RanksIn(x + y, lo, hi)
  {
    forall i, j | 0 <= i < j < |x + y|
      ensures MarkRank((x + y)[i].mark) < MarkRank((x + y)[j].mark)
    {
      if j < |x| {
        assert (x + y)[i] == x[i] && (x + y)[j] == x[j];
      } else if i >= |x| {
        assert (x + y)[i] == y[i - |x|] && (x + y)[j] == y[j - |x|];
      } else {
        assert (x + y)[i] == x[i] && (x + y)[j] == y[j - |x|];
      }
    }
    forall i | 0 <= i < |x + y|
      ensures lo <= MarkRank((x + y)[i].mark) < hi
    {
      if i < |x| {
        assert (x + y)[i] == x[i];
      } else {
        assert (x + y)[i] == y[i - |x|];
      }
    }
  }

  /** Four pieces of at most one row each, ranked 0, 1, 2 and 3, concatenate to
      at most four rows of strictly increasing rank. */
  lemma FourPiecesOrdered(a: seq<LegendRow>, b: seq<LegendRow>, c: seq<LegendRow>, d: seq<LegendRow>)
    requires |a| <= 1 && |b| <= 1 && |c| <= 1 && |d| <= 1
    requires Ascending(a) && RanksIn(a, 0, 1) && Ascending(b) && RanksIn(b, 1, 2)
    requires Ascending(c) && RanksIn(c, 2, 3) && Ascending(d) && RanksIn(d, 3, 4)
    ensures |a + b + c + d| <= 4 && Ascending(a + b + c + d) && RanksIn(a + b + c + d, 0, 4)
  {
    AscendingConcat(a, b, 0, 1, 2);
    AscendingConcat(a + b, c, 0, 2, 3);
    AscendingConcat(a + b + c, d, 0, 3, 4);
  }

  /** The four legend rows carry the ranks 0 to 3 of the mark order. */
  lemma LegendRowRanks()
    ensures MarkRank(TimeLagRow.mark) == 0 && MarkRank(UnknownArchiveRow.mark) == 1
    ensures MarkRank(HeadLagRow.mark) == 2 && MarkRank(ShardLagRow.mark) == 3
    ensures |MarkOrder| == 4
  {
  }

  /** Whatever flags are given, the rows come in the fixed order "(*)", "(?)",
      "(!)", "(!!)": at most four rows and no mark twice. */
  lemma LegendOfOrder(timeLag: bool, archiveUnknown: bool, mcLag: bool, shardLag: bool)
    ensures var rows := LegendOf(timeLag, archiveUnknown, mcLag, shardLag);
            |rows| <= |MarkOrder| && Ascending(rows) && RanksIn(rows, 0, |MarkOrder|)
  {
    LegendRowRanks();
    RowIfRanks(timeLag, TimeLagRow, 0);
    RowIfRanks(archiveUnknown, UnknownArchiveRow, 1);
    RowIfRanks(mcLag, HeadLagRow, 2);
    RowIfRanks(shardLag, ShardLagRow, 3);
    FourPiecesOrdered(RowIf(timeLag, TimeLagRow), RowIf(archiveUnknown, UnknownArchiveRow),
                      RowIf(mcLag, HeadLagRow), RowIf(shardLag, ShardLagRow));
  }

  /** The fleet's legend rows come in the fixed order "(*)", "(?)", "(!)",
      "(!!)": at most four rows and no mark twice. */
  lemma BuildLegendOrder(ss: seq<ProviderStatus>)
    ensures |BuildLegend(ss)| <= |MarkOrder|
    ensures Ascending(BuildLegend(ss)) && RanksIn(BuildLegend(ss), 0, |MarkOrder|)
  {
    LegendOfOrder(AnyTimeLag(ss), AnyArchiveUnknown(ss), AnyMcLag(ss), AnyShardLag(ss));
  }

  lemma RowIfRanks(present: bool, row: LegendRow, rank: nat)
    requires MarkRank(row.mark) == rank
    ensures |RowIf(present, row)| <= 1
    ensures Ascending(RowIf(present, row)) && RanksIn(RowIf(present, row), rank, rank + 1)
  {
  }

  // ---------------------------------------------------------------------------
  // print_status rows
  // ---------------------------------------------------------------------------

  const Headers: seq<string> := [
    "LS", "IP", "PORT", "Connect", "Request", "Ping", "Version", "Time", "Last block seqno", "Archive depth"
  ]

  /** Python's `x or "-"` on an optional string: absent or empty shows "-". */
  function OrDash(x: Option<string>): string {
    match x
    case Some(v) => if |v| > 0 then v else "-"
    case None => "-"
  }

  function MsCell(x: Option<int>): string {
    match x
    case Some(v) => IntToString(v) + " ms"
    case None => "-"
  }

  /** The Time column: the label, else the raw time (`is not None`), else "-". */
  function TimeCell(s: ProviderStatus): string {
    if s.timeLabel.Some? && |s.timeLabel.value| > 0 then s.timeLabel.value
    else if s.timeValue.Some? then IntToString(s.timeValue.value)
    else "-"
  }

  /** The seqno column: the label, else the raw head if it is truthy (non-zero), else "-". */
  function SeqnoCell(s: ProviderStatus): string {
    if s.lastBlockSeqnoLabel.Some? && |s.lastBlockSeqnoLabel.value| > 0 then s.lastBlockSeqnoLabel.value
    else if s.lastBlockSeqnoRaw.Some? && s.lastBlockSeqnoRaw.value != 0 then IntToString(s.lastBlockSeqnoRaw.value)
    else "-"
  }

  /** One table row of `print_status`. */
  function BuildRow(s: ProviderStatus): (row: seq<string>)
    ensures |row| == |Headers|
  {
    [ IntToString(s.index), s.host, IntToString(s.port),
      MsCell(s.connectMs), MsCell(s.requestMs), MsCell(s.pingMs),
      OrDash(s.version), TimeCell(s), SeqnoCell(s), OrDash(s.archiveDepthLabel) ]
  }

  /** For a record that enters `print_status` unflagged and with a head seqno,
      the seqno cell carries the mark of exactly the flag that colours its row. */
  lemma SeqnoCellAgreesWithFlags(ss: seq<ProviderStatus>, i: nat)
    requires i < |ss| && ss[i].lastBlockSeqnoRaw.Some?
    requires !ss[i].mcLag && !ss[i].shardLag
    ensures var a := Annotate(ss)[i];
            var v := ss[i].lastBlockSeqnoRaw.value;
            BuildRow(a)[8] == if a.mcLag then Marked(v, HeadLagMark)
                              else if a.shardLag then Marked(v, ShardLagMark)
                              else IntToString(v)
  {
    var mid := AnnotateSeqnoLags(ss);
    AnnotateSeqnoLagsSpec(ss, i);
    var a := Annotate(ss)[i];
    assert TimeFrame(mid[i], a);
    assert a.mcLag == mid[i].mcLag && a.shardLag == mid[i].shardLag;
    assert a.lastBlockSeqnoLabel == mid[i].lastBlockSeqnoLabel;
  }

  /** For a record that enters `print_status` with a time and no time flag, while
      some node reports a positive time, the time cell is marked exactly when
      the row's time flag is raised. */
  lemma TimeCellAgreesWithFlag(ss: seq<ProviderStatus>, i: nat)
    requires i < |ss| && ss[i].timeValue.Some? && !ss[i].timeLag
    requires SomePositiveTime(ss)
    ensures var a := Annotate(ss)[i];
            var v := ss[i].timeValue.value;
            BuildRow(a)[7] == if a.timeLag then Marked(v, TimeLagMark) else IntToString(v)
  {
    AnnotateTimeFlag(ss, i);
  }

  /** The seqno pass leaves every time and time flag alone, so the fleet's
      time facts read the same before and after it. */
  lemma AnnotateSeqnoLagsKeepsTimes(ss: seq<ProviderStatus>)
    ensures forall j :: 0 <= j < |ss| ==>
              AnnotateSeqnoLags(ss)[j].timeValue == ss[j].timeValue && AnnotateSeqnoLags(ss)[j].timeLag == ss[j].timeLag
    ensures forall v :: TimeBehindFleet(AnnotateSeqnoLags(ss), v) == TimeBehindFleet(ss, v)
    ensures SomePositiveTime(AnnotateSeqnoLags(ss)) == SomePositiveTime(ss)
  {
    var mid := AnnotateSeqnoLags(ss);
    AnnotateSeqnoLagsFrame(ss);
    assert forall j :: 0 <= j < |ss| ==> mid[j].timeValue == ss[j].timeValue && mid[j].timeLag == ss[j].timeLag;
  }

  /** After both passes, a record with a time carries the time flag and "(*)"
      exactly when some record reports a later time (given a positive time
      somewhere). */
  lemma AnnotateTimeFlag(ss: seq<ProviderStatus>, i: nat)
    requires i < |ss| && ss[i].timeValue.Some?
    requires SomePositiveTime(ss)
    ensures var v := ss[i].timeValue.value;
            var r := Annotate(ss)[i];
            && r.timeLag == (ss[i].timeLag || TimeBehindFleet(ss, v))
            && r.timeLabel == Some(if TimeBehindFleet(ss, v) then Marked(v, TimeLagMark) else IntToString(v))
  {
    AnnotateSeqnoLagsKeepsTimes(ss);
    AnnotateTimeLagsSpec(AnnotateSeqnoLags(ss), i);
  }

  /** The row style of `print_status`: bright red for a head or shard lag, else
      plain yellow for a time lag or unknown archive depth, else none. */
  function RowStyleOf(s: ProviderStatus): (st: Option<RowStyle>)
    ensures st == Some(RowStyle(ForeRed, true)) <==> s.shardLag || s.mcLag
    ensures st == Some(RowStyle(ForeYellow, false)) <==> !(s.shardLag || s.mcLag) && (s.timeLag || s.archiveUnknown)
    ensures st == None <==> !(s.shardLag || s.mcLag || s.timeLag || s.archiveUnknown)
  {
    if s.shardLag || s.mcLag then Some(RowStyle(ForeRed, true))
    else if s.timeLag || s.archiveUnknown then Some(RowStyle(ForeYellow, false))
    else None
  }

  function Rows(ss: seq<ProviderStatus>): (rows: seq<seq<string>>)
    ensures |rows| == |ss|
    ensures forall k :: 0 <= k < |ss| ==> rows[k] == BuildRow(ss[k])
  {
    seq(|ss|, k requires 0 <= k < |ss| => BuildRow(ss[k]))
  }

  function Styles(ss: seq<ProviderStatus>): (styles: seq<Option<RowStyle>>)
    ensures |styles| == |ss|
    ensures forall k :: 0 <= k < |ss| ==> styles[k] == RowStyleOf(ss[k])
  {
    seq(|ss|, k requires 0 <= k < |ss| => RowStyleOf(ss[k]))
  }

  /** Both annotations, in the order `print_status` runs them. */
  function Annotate(ss: seq<ProviderStatus>): seq<ProviderStatus> {
    AnnotateTimeLags(AnnotateSeqnoLags(ss))
  }

  /** The status table lines of `print_status`. */
  function StatusTable(ss: seq<ProviderStatus>): Result<seq<string>, TableError> {
    var annotated := Annotate(ss);
    FormatTable(Headers, Rows(annotated), Some(Styles(annotated)))
  }

  /** The mark cell: coloured bright in the row's colour when it has one. */
  function LegendMarkCell(row: LegendRow): string {
    if |row.fg| > 0 then Color(row.mark, Some(row.fg), true) else row.mark
  }

  /** The legend table: each mark coloured bright in its colour, or left plain
      when its colour is empty. */
  function LegendTable(legend: seq<LegendRow>): Result<seq<string>, TableError> {
    var data := seq(|legend|, k requires 0 <= k < |legend| =>
      [LegendMarkCell(legend[k]), legend[k].description]);
    FormatTable(["Mark", "Description"], data, Some(seq(|legend|, _ => None)))
  }

  /** Everything `print_status` prints: the table, then, when some flag is set,
      an empty line and the legend table. */
  function StatusReport(ss: seq<ProviderStatus>): Result<seq<string>, TableError> {
    match StatusTable(ss)
    case Err(e) => Err(e)
    case Ok(table) =>
      var legend := BuildLegend(Annotate(ss));
      if |legend| == 0 then Ok(table)
      else
        match LegendTable(legend)
        case Err(e) => Err(e)
        case Ok(lines) => Ok(table + [""] + lines)
  }

  /** Every row has exactly as many cells as there are headers, so the
      row-length check of `print_table` never fires: the report always prints,
      one line per record plus the header, then the legend when it is non-empty. */
  lemma StatusReportPrints(ss: seq<ProviderStatus>)
    ensures StatusReport(ss).Ok?
    ensures var legend := BuildLegend(Annotate(ss));
            |StatusReport(ss).value| == |ss| + 1 + (if |legend| == 0 then 0 else |legend| + 2)
  {
    var annotated := Annotate(ss);
    var rows := Rows(annotated);
    assert |annotated| == |ss|;
    assert forall k :: 0 <= k < |rows| ==> |rows[k]| == |Headers|;
    var table := StatusTable(ss);
    assert table.Ok? && |table.value| == |ss| + 1;
    var legend := BuildLegend(annotated);
    if |legend| > 0 {
      LegendTablePrints(legend);
    }
  }

  lemma LegendTablePrints(legend: seq<LegendRow>)
    ensures LegendTable(legend).Ok? && |LegendTable(legend).value| == |legend| + 1
  {
    var data := seq(|legend|, k requires 0 <= k < |legend| =>
      [LegendMarkCell(legend[k]), legend[k].description]);
    assert forall k :: 0 <= k < |data| ==> |data[k]| == 2;
  }
}

=== FILE: text.dfy ===
/** String helpers mirroring the Python built-ins the core uses: `str.join`,
    `str.split(' ')`, `str.ljust`, ASCII `str.lower`, and the "number followed
    by a unit" tokens (`3y`, `12m`, `5s`, `40ms`) that the archive-depth and
    elapsed-time labels are made of. */
module Text {

  import opened Wrappers
  import opened Decimal

  /** `sep.join(parts)`. */
  function Join(parts: seq<string>, sep: string): string
    decreases |parts|
  {
    if |parts| == 0 then ""
    else if |parts| == 1 then parts[0]
    else parts[0] + sep + Join(parts[1..], sep)
  }

  /** A slice past a prefix is the same slice of what follows the prefix. */
  lemma SliceAfterPrefix(a: string, b: string, lo: nat, hi: nat)
    requires lo <= hi <= |b|
    ensures (a + b)[|a| + lo..|a| + hi] == b[lo..hi]
  {
    assert forall k :: 0 <= k < hi - lo ==> (a + b)[|a| + lo..|a| + hi][k] == b[lo..hi][k];
  }

  /** The first `n` characters of a slice are the shorter slice from the same start. */
  lemma SliceOfSlice(s: string, o: nat, n: nat, m: nat)
    requires n <= m && o + m <= |s|
    ensures s[o..o + n] == s[o..o + m][..n]
  {
  }

  /** `s.split(sep)` for a single-character separator: always at least one piece. */
  function Split(s: string, sep: char): (pieces: seq<string>)
    ensures |pieces| >= 1
    decreases |s|
  {
    if |s| == 0 then [""]
    else if s[0] == sep then [""] + Split(s[1..], sep)
    else
      var rest := Split(s[1..], sep);
      [[s[0]] + rest[0]] + rest[1..]
  }

  function Spaces(n: nat): (s: string)
    ensures |s| == n
    ensures forall i :: 0 <= i < n ==> s[i] == ' '
  {
    seq(n, _ => ' ')
  }

  /** `s.ljust(width)`: pad with trailing spaces; never truncates. */
  function LJust(s: string, width: nat): (r: string)
    ensures |r| == if |s| >= width then |s| else width
    ensures r[..|s|] == s
    ensures forall i :: |s| <= i < |r| ==> r[i] == ' '
  {
    if |s| >= width then s else s + Spaces(width - |s|)
  }

  /** Lower-cases ASCII letters and leaves every other character alone. */
  function LowerChar(c: char): (d: char)
    ensures 'A' <= c <= 'Z' ==> d as int == c as int + 32
    ensures !('A' <= c <= 'Z') ==> d == c
  {
    if 'A' <= c <= 'Z' then (c as int + 32) as char else c
  }

  function Lower(s: string): (r: string)
    ensures |r| == |s|
    ensures forall i :: 0 <= i < |s| ==> r[i] == LowerChar(s[i])
  {
    seq(|s|, i requires 0 <= i < |s| => LowerChar(s[i]))
  }

  /** Lowering is a normal form: nothing upper-case survives it, text without
      upper-case letters is left as it is, and lowering twice is lowering once. */
  lemma LowerSpec(s: string)
    ensures forall i :: 0 <= i < |s| ==> !('A' <= Lower(s)[i] <= 'Z')
    ensures Lower(s) == s <==> forall i :: 0 <= i < |s| ==> !('A' <= s[i] <= 'Z')
    ensures Lower(Lower(s)) == Lower(s)
  {
    var r := Lower(s);
    if forall i :: 0 <= i < |s| ==> !('A' <= s[i] <= 'Z') {
      assert forall i :: 0 <= i < |s| ==> r[i] == s[i];
    }
    assert forall i :: 0 <= i < |r| ==> Lower(r)[i] == r[i];
  }

  // ---------------------------------------------------------------------------
  // Quantity tokens
  // ---------------------------------------------------------------------------

  /** One labelled amount, rendered as its decimal digits directly followed by the unit. */
  datatype Quantity = Quantity(amount: nat, unit: string)

  /** A unit is a non-empty run of characters that are neither digits nor spaces. */
  predicate ValidUnit(u: string) {
    |u| >= 1 && forall i :: 0 <= i < |u| ==> !IsDigit(u[i]) && u[i] != ' '
  }

  function QuantityText(q: Quantity): string {
    NatToString(q.amount) + q.unit
  }

  /** Quantities separated by single spaces, as `" ".join(parts)` builds them. */
  function Render(qs: seq<Quantity>): string {
    Join(seq(|qs|, i requires 0 <= i < |qs| => QuantityText(qs[i])), " ")
  }

  /** Length of the longest all-digit prefix of `s`. */
  function DigitPrefixLength(s: string): (n: nat)
    ensures n <= |s|
    ensures AllDigits(s[..n])
    ensures n < |s| ==> !IsDigit(s[n])
    decreases |s|
  {
    if |s| == 0 || !IsDigit(s[0]) then 0
    else
      var n := 1 + DigitPrefixLength(s[1..]);
      assert s[..n] == [s[0]] + s[1..][..n - 1];
      n
  }

  /** Reads one token: digits, then a valid unit. */
  function ParseQuantity(token: string): Option<Quantity> {
    var n := DigitPrefixLength(token);
    if n == 0 || !ValidUnit(token[n..]) then None
    else Some(Quantity(DigitsValue(token[..n]), token[n..]))
  }

  function ParseTokens(tokens: seq<string>): Option<seq<Quantity>>
    decreases |tokens|
  {
    if |tokens| == 0 then Some([])
    else
      match ParseQuantity(tokens[0])
      case None => None
      case Some(q) =>
        match ParseTokens(tokens[1..])
        case None => None
        case Some(rest) => Some([q] + rest)
  }

  /** Reads back a space-separated list of quantities. */
  function ParseQuantities(s: string): Option<seq<Quantity>> {
    ParseTokens(Split(s, ' '))
  }

  // ---------------------------------------------------------------------------
  // Lemmas
  // ---------------------------------------------------------------------------

  lemma {:induction false} SplitNoSeparator(s: string, sep: char)
    requires forall i :: 0 <= i < |s| ==> s[i] != sep
    ensures Split(s, sep) == [s]
    decreases |s|
  {
    if |s| > 0 {
      SplitNoSeparator(s[1..], sep);
      assert [s[0]] + s[1..] == s;
    }
  }

  lemma {:induction false} SplitAfterPiece(t: string, u: string, sep: char)
    requires forall i :: 0 <= i < |t| ==> t[i] != sep
    ensures Split(t + [sep] + u, sep) == [t] + Split(u, sep)
    decreases |t|
  {
    var s := t + [sep] + u;
    if |t| == 0 {
      assert s == [sep] + u;
      assert s[1..] == u;
    } else {
      assert s[1..] == t[1..] + [sep] + u;
      SplitAfterPiece(t[1..], u, sep);
      assert [t[0]] + t[1..] == t;
    }
  }

  /** Splitting undoes joining when no piece contains the separator. */
  lemma {:induction false} SplitJoin(parts: seq<string>, sep: char)
    requires |parts| >= 1
    requires forall k, i :: 0 <= k < |parts| && 0 <= i < |parts[k]| ==> parts[k][i] != sep
    ensures Split(Join(parts, [sep]), sep) == parts
    decreases |parts|
  {
    if |parts| == 1 {
      SplitNoSeparator(parts[0], sep);
    } else {
      SplitJoin(parts[1..], sep);
      SplitAfterPiece(parts[0], Join(parts[1..], [sep]), sep);
      assert [parts[0]] + parts[1..] == parts;
    }
  }

  lemma QuantityTextParses(q: Quantity)
    requires ValidUnit(q.unit)
    ensures ParseQuantity(QuantityText(q)) == Some(q)
  {
    var digits := NatToString(q.amount);
    var t := QuantityText(q);
    assert t[..|digits|] == digits;
    assert t[|digits|..] == q.unit;
    assert forall i :: 0 <= i < |digits| ==> t[i] == digits[i];
    assert t[|digits|] == q.unit[0];
    NatRoundTrip(q.amount);
  }

  /** A token list reads back as the list of what each token reads as. */
  lemma {:induction false} ParseTokensOfTexts(tokens: seq<string>, qs: seq<Quantity>)
    requires |tokens| == |qs|
    requires forall k :: 0 <= k < |qs| ==> ParseQuantity(tokens[k]) == Some(qs[k])
    ensures ParseTokens(tokens) == Some(qs)
    decreases |qs|
  {
    if |qs| > 0 {
      assert ParseQuantity(tokens[0]) == Some(qs[0]);
      assert forall k :: 0 <= k < |qs| - 1 ==> tokens[1..][k] == tokens[k + 1] && qs[1..][k] == qs[k + 1];
      ParseTokensOfTexts(tokens[1..], qs[1..]);
      assert [qs[0]] + qs[1..] == qs;
    }
  }

  /** Round trip: a non-empty list of quantities with valid units is read back exactly. */
  lemma RenderRoundTrip(qs: seq<Quantity>)
    requires |qs| >= 1
    requires forall k :: 0 <= k < |qs| ==> ValidUnit(qs[k].unit)
    ensures ParseQuantities(Render(qs)) == Some(qs)
  {
    var texts := seq(|qs|, i requires 0 <= i < |qs| => QuantityText(qs[i]));
    forall k, i | 0 <= k < |texts| && 0 <= i < |texts[k]|
      ensures texts[k][i] != ' '
    {
      var digits := NatToString(qs[k].amount);
      if i >= |digits| {
        assert texts[k][i] == qs[k].unit[i - |digits|];
      }
    }
    SplitJoin(texts, ' ');
    forall k | 0 <= k < |qs|
      ensures ParseQuantity(texts[k]) == Some(qs[k])
    {
      QuantityTextParses(qs[k]);
    }
    ParseTokensOfTexts(texts, qs);
  }

  /** The first character of a rendered non-empty list is a digit. */
  lemma RenderStartsWithDigit(qs: seq<Quantity>)
    requires |qs| >= 1
    ensures |Render(qs)| >= 1 && IsDigit(Render(qs)[0])
  {
    var texts := seq(|qs|, i requires 0 <= i < |qs| => QuantityText(qs[i]));
    assert texts[0] == NatToString(qs[0].amount) + qs[0].unit;
    if |texts| > 1 {
      assert Join(texts, " ") == texts[0] + " " + Join(texts[1..], " ");
    }
  }

  /** `Join` length: the pieces plus one separator between each adjacent pair. */
  lemma {:induction false} JoinLength(parts: seq<string>, sep: string)
    requires |parts| >= 1
    ensures |Join(parts, sep)| == SumLengths(parts) + (|parts| - 1) * |sep|
    decreases |parts|
  {
    if |parts| > 1 {
      JoinLength(parts[1..], sep);
    }
  }

  function SumLengths(parts: seq<string>): nat
    decreases |parts|
  {
    if |parts| == 0 then 0 else |parts[0]| + SumLengths(parts[1..])
  }
}

=== FILE: utils.dfy ===
/** The formatting helpers of utils.py: `format_elapsed`, `color`,
    `parse_network` and the pure part of `print_table` (column widths, the
    row-length check, `ljust` padding and the two-space join). Printing itself
    is not modelled: a table is the list of lines it would print. */
module Utils {

  import opened Wrappers
  import opened Arith
  import opened Decimal
  import opened Text

  // ---------------------------------------------------------------------------
  // format_elapsed, over whole milliseconds
  // ---------------------------------------------------------------------------

  function Hours(total: nat): nat { total / 3600 }
  function Minutes(total: nat): nat { total % 3600 / 60 }
  function Seconds(total: nat): nat { total % 3600 % 60 }

  /** `h`, `m` and `s` recompose the whole seconds; minutes and seconds stay below 60. */
  lemma ElapsedDecomposition(total: nat)
    ensures Hours(total) * 3600 + Minutes(total) * 60 + Seconds(total) == total
    ensures Minutes(total) < 60 && Seconds(total) < 60
  {
  }

  /** The components printed for a duration of at least one second. */
  function ElapsedParts(total: nat): seq<Quantity> {
    var h, m, s := Hours(total), Minutes(total), Seconds(total);
    if h > 0 then [Quantity(h, "h"), Quantity(m, "m"), Quantity(s, "s")]
    else if m > 0 then [Quantity(m, "m"), Quantity(s, "s")]
    else [Quantity(s, "s")]
  }

  /** `format_elapsed(ms / 1000)`: below one second the truncated milliseconds
      with an `ms` suffix, otherwise whole hours, minutes and seconds. */
  function FormatElapsed(ms: int): string {
    if ms < 1000 then IntToString(ms) + "ms" else Render(ElapsedParts(ms / 1000))
  }

  /** What a formatted duration denotes. */
  datatype Elapsed = Millis(ms: nat) | WholeSeconds(seconds: nat)

  /** Reads back the canonical forms `Nms`, `Ss`, `Mm Ss` (M > 0) and `Hh Mm Ss`
      (H > 0), with minutes and seconds below 60 and milliseconds below 1000. */
  function ParseElapsed(s: string): Option<Elapsed> {
    match ParseQuantities(s)
    case None => None
    case Some(qs) => ElapsedOf(qs)
  }

  function ElapsedOf(qs: seq<Quantity>): Option<Elapsed> {
    if |qs| == 1 && qs[0].unit == "ms" && qs[0].amount < 1000 then Some(Millis(qs[0].amount))
    else if |qs| == 1 && qs[0].unit == "s" && qs[0].amount < 60 then Some(WholeSeconds(qs[0].amount))
    else if |qs| == 2 && qs[0].unit == "m" && qs[1].unit == "s"
            && 0 < qs[0].amount < 60 && qs[1].amount < 60
    then Some(WholeSeconds(qs[0].amount * 60 + qs[1].amount))
    else if |qs| == 3 && qs[0].unit == "h" && qs[1].unit == "m" && qs[2].unit == "s"
            && 0 < qs[0].amount && qs[1].amount < 60 && qs[2].amount < 60
    then Some(WholeSeconds(qs[0].amount * 3600 + qs[1].amount * 60 + qs[2].amount))
    else None
  }

  lemma ElapsedPartsRead(total: nat)
    ensures ElapsedOf(ElapsedParts(total)) == Some(WholeSeconds(total))
  {
    ElapsedDecomposition(total);
    var h, m, s := Hours(total), Minutes(total), Seconds(total);
    if h > 0 {
      assert ElapsedParts(total) == [Quantity(h, "h"), Quantity(m, "m"), Quantity(s, "s")];
    } else if m > 0 {
      assert ElapsedParts(total) == [Quantity(m, "m"), Quantity(s, "s")];
    } else {
      assert ElapsedParts(total) == [Quantity(s, "s")];
    }
  }

  /** Every non-negative duration is printed in exactly one canonical form that
      reads back to the truncated milliseconds (below one second) or the whole
      seconds (otherwise). */
  lemma FormatElapsedRoundTrip(ms: nat)
    ensures ParseElapsed(FormatElapsed(ms))
            == if ms < 1000 then Some(Millis(ms)) else Some(WholeSeconds(ms / 1000))
  {
    if ms < 1000 {
      var q := Quantity(ms, "ms");
      assert IntToString(ms) + "ms" == Render([q]);
      RenderRoundTrip([q]);
      assert ElapsedOf([q]) == Some(Millis(ms));
    } else {
      var parts := ElapsedParts(ms / 1000);
      RenderRoundTrip(parts);
      ElapsedPartsRead(ms / 1000);
    }
  }

  // ---------------------------------------------------------------------------
  // color
  // ---------------------------------------------------------------------------

  /** colorama's ANSI escape codes. Each is non-empty, which the legend's
      `if fg` test relies on. */
  const StyleBright: string := "\U{1B}[1m"
  const StyleResetAll: string := "\U{1B}[0m"
  const ForeRed: string := "\U{1B}[31m"
  const ForeYellow: string := "\U{1B}[33m"
  const ForeBlue: string := "\U{1B}[34m"

  function StylePrefix(fg: Option<string>, bright: bool): string {
    (if bright then StyleBright else "") + (match fg case Some(f) => f case None => "")
  }

  /** `color(text, fg, bright)`: BRIGHT if asked, then the foreground code if
      given, then the text, then RESET_ALL. */
  function Color(text: string, fg: Option<string>, bright: bool): (r: string)
    ensures |r| == |StylePrefix(fg, bright)| + |text| + |StyleResetAll|
    ensures |StylePrefix(fg, bright)| == (if bright then |StyleBright| else 0)
                                        + (if fg.Some? then |fg.value| else 0)
    ensures bright ==> r[..|StyleBright|] == StyleBright
    ensures fg.Some? ==> var p := if bright then |StyleBright| else 0;
                         r[p..p + |fg.value|] == fg.value
    ensures var p := |StylePrefix(fg, bright)|; r[p..p + |text|] == text
    ensures r[|r| - |StyleResetAll|..] == StyleResetAll
  {
    StylePrefix(fg, bright) + text + StyleResetAll
  }

  /** Removes the style `Color` added, if the string carries it. */
  function Uncolor(s: string, fg: Option<string>, bright: bool): Option<string> {
    var p := StylePrefix(fg, bright);
    if |s| >= |p| + |StyleResetAll| && s[..|p|] == p && s[|s| - |StyleResetAll|..] == StyleResetAll
    then Some(s[|p|..|s| - |StyleResetAll|])
    else None
  }

  lemma ColorRoundTrip(text: string, fg: Option<string>, bright: bool)
    ensures Uncolor(Color(text, fg, bright), fg, bright) == Some(text)
  {
    var p := StylePrefix(fg, bright);
    var r := Color(text, fg, bright);
    assert r[..|p|] == p;
    assert r[|p|..|r| - |StyleResetAll|] == text;
  }

  // ---------------------------------------------------------------------------
  // parse_network
  // ---------------------------------------------------------------------------

  datatype Network = Mainnet | Testnet
  datatype NetworkError = UnsupportedNetwork(lowered: string)

  /** `parse_network`: the name is lower-cased first, then compared. */
  function ParseNetwork(name: string): Result<Network, NetworkError> {
    var lowered := Lower(name);
    if lowered == "mainnet" then Ok(Mainnet)
    else if lowered == "testnet" then Ok(Testnet)
    else Err(UnsupportedNetwork(lowered))
  }

  /** `c` is `lc` written in either letter case. */
  predicate CaseVariant(c: char, lc: char) {
    c == lc || ('a' <= lc <= 'z' && c as int == lc as int - 32)
  }

  /** Reference definition: `name` spells the lower-case word `word` in any letter case. */
  predicate SpellsIgnoringCase(name: string, word: string) {
    |name| == |word| && forall i :: 0 <= i < |name| ==> CaseVariant(name[i], word[i])
  }

  lemma LowerEqualsWord(name: string, word: string)
    requires forall i :: 0 <= i < |word| ==> 'a' <= word[i] <= 'z'
    ensures Lower(name) == word <==> SpellsIgnoringCase(name, word)
  {
    if SpellsIgnoringCase(name, word) {
      assert forall i :: 0 <= i < |name| ==> Lower(name)[i] == word[i];
    }
    if Lower(name) == word {
      assert forall i :: 0 <= i < |name| ==> LowerChar(name[i]) == word[i];
    }
  }

  /** "mainnet" and "testnet" are accepted in any letter case; every other name
      is rejected with its lower-cased form. */
  lemma ParseNetworkSpec(name: string)
    ensures ParseNetwork(name) == Ok(Mainnet) <==> SpellsIgnoringCase(name, "mainnet")
    ensures ParseNetwork(name) == Ok(Testnet) <==> SpellsIgnoringCase(name, "testnet")
    ensures ParseNetwork(name).Err? <==>
              !SpellsIgnoringCase(name, "mainnet") && !SpellsIgnoringCase(name, "testnet")
    ensures ParseNetwork(name).Err? ==> ParseNetwork(name).error == UnsupportedNetwork(Lower(name))
  {
    LowerEqualsWord(name, "mainnet");
    LowerEqualsWord(name, "testnet");
  }

  // ---------------------------------------------------------------------------
  // print_table
  // ---------------------------------------------------------------------------

  /** A row style: the foreground code and whether the row is bright. */
  datatype RowStyle = RowStyle(fg: string, bright: bool)

  /** The `ValueError` raised for a row whose length differs from the headers'. */
  datatype TableError = RowLengthMismatch


  /** One step of the widths loop: widen each column to this row's cell. */
  function Widen(widths: seq<nat>, row: seq<string>): (r: seq<nat>)
    requires |row| == |widths|
    ensures |r| == |widths|
    ensures forall i :: 0 <= i < |widths| ==> r[i] == Max(widths[i], |row[i]|)
  {
    seq(|widths|, i requires 0 <= i < |widths| => Max(widths[i], |row[i]|))
  }

  /** The widths loop over `rows`, starting from `acc`; the first row of the
      wrong length raises. */
  function CheckedWidths(rows: seq<seq<string>>, acc: seq<nat>): (r: Result<seq<nat>, TableError>)
    ensures r.Err? <==> exists k :: 0 <= k < |rows| && |rows[k]| != |acc|
    ensures r.Ok? ==> |r.value| == |acc|
    ensures r.Ok? ==> forall k :: 0 <= k < |rows| ==> |rows[k]| == |acc|
    ensures r.Ok? ==> forall i :: 0 <= i < |acc| ==> acc[i] <= r.value[i]
    ensures r.Ok? ==> forall k, i :: 0 <= k < |rows| && 0 <= i < |rows[k]| ==> |rows[k][i]| <= r.value[i]
    ensures r.Ok? ==> forall i :: 0 <= i < |acc| ==>
                        r.value[i] == acc[i] || exists k :: 0 <= k < |rows| && r.value[i] == |rows[k][i]|
    decreases |rows|
  {
    if |rows| == 0 then Ok(acc)
    else if |rows[0]| != |acc| then Err(RowLengthMismatch)
    else
      var r := CheckedWidths(rows[1..], Widen(acc, rows[0]));
      if r.Ok? then
        assert forall k :: 1 <= k < |rows| ==> rows[k] == rows[1..][k - 1];
        r
      else
        r
  }

  function HeaderLengths(headers: seq<string>): (r: seq<nat>)
    ensures |r| == |headers|
    ensures forall i :: 0 <= i < |headers| ==> r[i] == |headers[i]|
  {
    seq(|headers|, i requires 0 <= i < |headers| => |headers[i]|)
  }

  /** Column widths of `print_table`: each the longest of its header and its cells. */
  function Widths(headers: seq<string>, rows: seq<seq<string>>): Result<seq<nat>, TableError> {
    CheckedWidths(rows, HeaderLengths(headers))
  }

  /** `_fmt`: every cell left-justified to its column's width, joined by two spaces. */
  function FormatLine(cells: seq<string>, widths: seq<nat>): string
    requires |cells| == |widths|
  {
    Join(Padded(cells, widths), "  ")
  }

  function Padded(cells: seq<string>, widths: seq<nat>): (r: seq<string>)
    requires |cells| == |widths|
    ensures |r| == |cells|
    ensures forall i :: 0 <= i < |cells| ==> r[i] == LJust(cells[i], widths[i])
  {
    seq(|cells|, i requires 0 <= i < |cells| => LJust(cells[i], widths[i]))
  }

  /** `row_styles[idx] if row_styles and idx < len(row_styles) else None`. */
  function StyleAt(rowStyles: Option<seq<Option<RowStyle>>>, idx: nat): Option<RowStyle> {
    match rowStyles
    case None => None
    case Some(styles) => if idx < |styles| then styles[idx] else None
  }

  function Styled(line: string, style: Option<RowStyle>): string {
    match style
    case None => line
    case Some(st) => Color(line, Some(st.fg), st.bright)
  }

  /** The header line: bright blue. */
  function HeaderLine(headers: seq<string>, widths: seq<nat>): string
    requires |headers| == |widths|
  {
    Color(FormatLine(headers, widths), Some(ForeBlue), true)
  }

  function RowLines(rows: seq<seq<string>>, widths: seq<nat>,
                    rowStyles: Option<seq<Option<RowStyle>>>): (r: seq<string>)
    requires forall k :: 0 <= k < |rows| ==> |rows[k]| == |widths|
    ensures |r| == |rows|
    ensures forall k :: 0 <= k < |rows| ==> r[k] == Styled(FormatLine(rows[k], widths), StyleAt(rowStyles, k))
  {
    seq(|rows|, k requires 0 <= k < |rows| => Styled(FormatLine(rows[k], widths), StyleAt(rowStyles, k)))
  }

  /** The lines `print_table` prints: the header, then each row with its style.
      A row of the wrong length raises before anything is printed. */
  function FormatTable(headers: seq<string>, rows: seq<seq<string>>,
                       rowStyles: Option<seq<Option<RowStyle>>>): (r: Result<seq<string>, TableError>)
    ensures r.Err? <==> exists k :: 0 <= k < |rows| && |rows[k]| != |headers|
    ensures r.Ok? ==> |r.value| == |rows| + 1
    ensures r.Ok? ==> var w := Widths(headers, rows).value;
              r.value[0] == HeaderLine(headers, w)
              && forall k :: 0 <= k < |rows| ==>
                   r.value[k + 1] == Styled(FormatLine(rows[k], w), StyleAt(rowStyles, k))
  {
    var widths := Widths(headers, rows);
    if widths.Err? then Err(widths.error)
    else
      var lines := [HeaderLine(headers, widths.value)] + RowLines(rows, widths.value, rowStyles);
      assert forall k :: 0 <= k < |rows| ==> lines[k + 1] == RowLines(rows, widths.value, rowStyles)[k];
      Ok(lines)
  }

  // ---------------------------------------------------------------------------
  // Table layout lemmas
  // ---------------------------------------------------------------------------

  function Sum(ws: seq<nat>): nat
    decreases |ws|
  {
    if |ws| == 0 then 0 else ws[0] + Sum(ws[1..])
  }

  /** Column `i` starts here in every formatted line. */
  function ColumnStart(widths: seq<nat>, i: nat): nat
    requires i <= |widths|
  {
    Sum(widths[..i]) + 2 * i
  }

  lemma {:induction false} SumLengthsOfExact(parts: seq<string>, ws: seq<nat>)
    requires |parts| == |ws|
    requires forall i :: 0 <= i < |ws| ==> |parts[i]| == ws[i]
    ensures SumLengths(parts) == Sum(ws)
    decreases |ws|
  {
    if |ws| > 0 {
      SumLengthsOfExact(parts[1..], ws[1..]);
    }
  }

  lemma SumLengthsTake(parts: seq<string>, i: nat)
    requires 0 < i <= |parts|
    ensures SumLengths(parts[..i]) == |parts[0]| + SumLengths(parts[1..][..i - 1])
  {
    assert parts[..i][0] == parts[0];
    assert parts[..i][1..] == parts[1..][..i - 1];
  }

  /** Piece `i` of a join starts after the earlier pieces and their separators. */
  lemma {:induction false} JoinPieceAt(parts: seq<string>, sep: string, i: nat)
    requires i < |parts|
    ensures var o := SumLengths(parts[..i]) + i * |sep|;
            o + |parts[i]| <= |Join(parts, sep)|
            && Join(parts, sep)[o..o + |parts[i]|] == parts[i]
    decreases i
  {
    if i == 0 {
      assert SumLengths(parts[..0]) == 0;
      if |parts| > 1 {
        assert Join(parts, sep) == parts[0] + (sep + Join(parts[1..], sep));
      }
    } else {
      var rest := Join(parts[1..], sep);
      var pre := parts[0] + sep;
      assert Join(parts, sep) == pre + rest;
      JoinPieceAt(parts[1..], sep, i - 1);
      SumLengthsTake(parts, i);
      var o' := SumLengths(parts[1..][..i - 1]) + (i - 1) * |sep|;
      assert SumLengths(parts[..i]) + i * |sep| == |pre| + o';
      SliceAfterPrefix(pre, rest, o', o' + |parts[i]|);
    }
  }

  /** Joined with two spaces, pieces of exactly the column widths put piece `i`
      at `ColumnStart(widths, i)`. */
  lemma JoinExactPieceAt(pieces: seq<string>, widths: seq<nat>, i: nat)
    requires |pieces| == |widths| && i < |pieces|
    requires forall j :: 0 <= j < |pieces| ==> |pieces[j]| == widths[j]
    ensures var o := ColumnStart(widths, i);
            o + widths[i] <= |Join(pieces, "  ")| && Join(pieces, "  ")[o..o + widths[i]] == pieces[i]
  {
    assert forall j :: 0 <= j < i ==> pieces[..i][j] == pieces[j] && widths[..i][j] == widths[j];
    SumLengthsOfExact(pieces[..i], widths[..i]);
    JoinPieceAt(pieces, "  ", i);
  }

  /** Cell `i` sits at `ColumnStart(widths, i)` in `line`, followed by padding
      up to its column's width. */
  ghost predicate CellPadded(line: string, cells: seq<string>, widths: seq<nat>, i: nat)
    requires |cells| == |widths| && i < |cells| && |cells[i]| <= widths[i]
  {
    var o := ColumnStart(widths, i);
    && o + widths[i] <= |line|
    && line[o..o + widths[i]] == LJust(cells[i], widths[i])
    && line[o..o + |cells[i]|] == cells[i]
  }

  /** Cell `i` of a formatted line starts at `ColumnStart(widths, i)`, padded up
      to its column width. */
  lemma FormatLineCell(cells: seq<string>, widths: seq<nat>, i: nat)
    requires |cells| == |widths| && i < |cells|
    requires forall j :: 0 <= j < |cells| ==> |cells[j]| <= widths[j]
    ensures CellPadded(FormatLine(cells, widths), cells, widths, i)
  {
    var padded := Padded(cells, widths);
    assert forall j :: 0 <= j < |padded| ==> |padded[j]| == widths[j];
    JoinExactPieceAt(padded, widths, i);
    var line := FormatLine(cells, widths);
    var o := ColumnStart(widths, i);
    assert line[o..o + widths[i]] == LJust(cells[i], widths[i]);
    SliceOfSlice(line, o, |cells[i]|, widths[i]);
  }

  /** Every formatted line has the same length, `sum(widths) + 2 * (columns - 1)`,
      and cell `i` starts at `ColumnStart(widths, i)` followed by padding up to
      the column width. */
  lemma FormatLineLayout(cells: seq<string>, widths: seq<nat>)
    requires |cells| == |widths| >= 1
    requires forall i :: 0 <= i < |cells| ==> |cells[i]| <= widths[i]
    ensures |FormatLine(cells, widths)| == Sum(widths) + 2 * (|widths| - 1)
    ensures forall i :: 0 <= i < |cells| ==> CellPadded(FormatLine(cells, widths), cells, widths, i)
  {
    var padded := Padded(cells, widths);
    SumLengthsOfExact(padded, widths);
    JoinLength(padded, "  ");
    forall i | 0 <= i < |cells|
      ensures CellPadded(FormatLine(cells, widths), cells, widths, i)
    {
      FormatLineCell(cells, widths, i);
    }
  }

  /** `line` is as long as a line laid out on `widths`, and each cell appears
      whole at its column's start. */
  ghost predicate CellsPlaced(line: string, cells: seq<string>, widths: seq<nat>)
    requires |cells| == |widths|
  {
    && |line| == Sum(widths) + 2 * (|widths| - 1)
    && forall i :: 0 <= i < |cells| ==>
         var o := ColumnStart(widths, i);
         o + |cells[i]| <= |line| && line[o..o + |cells[i]|] == cells[i]
  }

  lemma FormatLinePlaced(cells: seq<string>, widths: seq<nat>)
    requires |cells| == |widths| >= 1
    requires forall i :: 0 <= i < |cells| ==> |cells[i]| <= widths[i]
    ensures CellsPlaced(FormatLine(cells, widths), cells, widths)
  {
    var line := FormatLine(cells, widths);
    FormatLineLayout(cells, widths);
    forall i | 0 <= i < |cells|
      ensures var o := ColumnStart(widths, i);
              o + |cells[i]| <= |line| && line[o..o + |cells[i]|] == cells[i]
    {
      assert CellPadded(line, cells, widths, i);
    }
  }

  /** When the table formats, header and rows share one layout: all lines have
      equal length and every cell sits at its column's start. */
  lemma TableLayout(headers: seq<string>, rows: seq<seq<string>>)
    requires |headers| >= 1
    requires Widths(headers, rows).Ok?
    ensures var w := Widths(headers, rows).value;
            && |w| == |headers|
            && CellsPlaced(FormatLine(headers, w), headers, w)
            && forall k :: 0 <= k < |rows| ==>
                 |rows[k]| == |headers| && CellsPlaced(FormatLine(rows[k], w), rows[k], w)
  {
    var w := Widths(headers, rows).value;
    FormatLinePlaced(headers, w);
    forall k | 0 <= k < |rows|
      ensures |rows[k]| == |headers| && CellsPlaced(FormatLine(rows[k], w), rows[k], w)
    {
      FormatLinePlaced(rows[k], w);
    }
  }
}

=== FILE: wrappers.dfy ===
/** Failure-compatible wrappers used throughout the model: `Option` stands for
    Python's `Optional[...]` fields and for steps that may be absent, `Result`
    for operations that raise an exception on bad input. */
module Wrappers {

  datatype Option<+T> = None | Some(value: T)

  datatype Result<+R, +E> = Ok(value: R) | Err(error: E)
}
